=== FILE: README.md ===
# Naomi Face Studio booking and media core, in Dafny

A Dafny model of the core of the Naomi Face Studio Django site:

- **reservations**: the weekly working hours, the time slots offered in 15-minute steps, the `is_available` guard, the end time derived when a reservation is saved, and the create and cancel views with the mail they send;
- **treatments**: duration arithmetic and display, per-language titles, the thumbnail upload path;
- **R2 storage**: the URL builder for a custom domain;
- **media clean-up**: the R2 signal handlers shared by education, treatments and blogs. These cover object-key building, reading a storage path back out of an image URL, the orphaned-upload sweep, and the rules for which files go when a record is saved or deleted;
- **gift vouchers**: the delivery address, the order form's validation, and its notification mail.

The model uses no I/O. The database is a sequence of records (or a map from id to record), and each view is a pure function from request and store to the new store, the answer and the list of mail recipients. Request parsing (`strptime`, integer ids) is abstracted into `Prelude.Field` (`Missing`, `Malformed` or `Given`). Times of day are whole minutes after midnight. Dates are Python ordinals, with `weekday()` computed as CPython does.

Modules, one per file:

- `Prelude`: `Option`, `Result`, `Field`, and the mail recipient.
- `Text`: the `str` operations the source uses, on `seq<char>`: `find`, `in`, `strip`, `lstrip`/`rstrip`, `replace('//', '/')`, `split(c)[0]`, and decimal formatting with its read-back.
- `Treatments`: treatments/models.py.
- `Reservations`: reservations/models.py.
- `Scheduling`: reservations/views.py.
- `Storage`: naomi_face_studio/storage.py.
- `MediaCleanup`: education/signals.py. treatments/signals.py and blogs/signals.py repeat the same handlers line for line.
- `MediaLinks`: how storage URLs meet the clean-up.
- `GiftVouchers`: gift_vouchers/models.py and gift_vouchers/views.py.

## Model

| member | source | states |
|---|---|---|
| Treatments.TotalMinutes | treatments/models.py:65-67 | The total is the minutes field plus 60 per hour. It is zero exactly when both fields are zero. It splits back into the two fields when the minutes are below 60. |
| Treatments.TotalPauseMinutes | treatments/models.py:69-71 | The same for the pause fields. |
| Treatments.DurationDisplay | treatments/models.py:56-63 | The text is "0min" exactly when both parts are zero. Otherwise it is "Xh" for whole hours, "Ymin" for minutes only, and "Xh Ymin" when both are set, with the numbers in decimal. |
| Treatments.DurationDisplayRoundTrip | treatments/models.py:56-63 | The duration text ("Xh", "Ymin", "Xh Ymin", or "0min") reads back to exactly the two fields, so different durations never display alike. |
| Treatments.Title | treatments/models.py:73-75 | The title is one of the two stored titles. "hr" gives the Croatian title. When the titles differ, the English one is returned exactly for "en". |
| Treatments.ThumbnailPath | treatments/models.py:9-11 | The upload path is the thumbnails directory followed by the filename, unchanged. |
| Reservations.WorkingHours | reservations/models.py:45-57 | Open exactly on weekdays 0-4: Monday and Thursday 12:00-20:00, Tuesday, Wednesday and Friday 09:00-17:00. Every window is 8 hours on the 15-minute grid. |
| Reservations.Weekday | reservations/models.py:63 | `date.weekday()` is a day number from 0 to 6. |
| Reservations.EndOnSave | reservations/models.py:36-43 | An end time that is already set is kept. Otherwise the end is the treatment length after the start on a 24-hour clock. It is start + length when that stays within the day. |
| Reservations.IsAvailableAsWritten | reservations/models.py:59-92 | Accepted exactly when the date is a working day, the start is at or after opening and before closing, the end read as a time of day (wrapping past midnight) is by closing, and no pending or confirmed reservation of that date other than the excluded one overlaps that start and end. |
| Reservations.IsAvailable | reservations/models.py:59-92 | The corrected guard (see Findings): accepted exactly when the date is a working day, the start is at or after opening and before closing, start + length is by closing on the same day, and no pending or confirmed reservation of that date other than the excluded one overlaps. |
| Reservations.OffGridStartAccepted | reservations/models.py:68-70 | The guard puts no grid on the start: a one-hour treatment at 12:07 on a Monday is accepted by both guards. |
| Reservations.AvailableIffNoWrap | reservations/models.py:72-80 | The corrected guard accepts exactly what the guard as written accepts, except bookings whose end runs past midnight. |
| Reservations.WrappedEndAccepted | reservations/models.py:72-80 | A Monday booking at 19:45 for 4h30 wraps to 00:15. The guard as written accepts it and the corrected guard refuses it. |
| Scheduling.Blocking | reservations/views.py:117-121 | The queryset is exactly the pending and confirmed reservations of the date. |
| Scheduling.SlotsFromSound | reservations/views.py:133-152 | Each slot starts on the 15-minute grid from the given start, lasts the treatment, ends by closing, and meets no blocking reservation. |
| Scheduling.SlotsFromSorted | reservations/views.py:133-154 | Slots come out with strictly increasing starts. |
| Scheduling.SlotsFromComplete | reservations/views.py:133-154 | Every grid start that fits before closing and meets no blocking reservation yields a slot. |
| Scheduling.GenerateSlots | reservations/views.py:123-154 | The loop with its early `break` computes exactly the recursive slot definition. |
| Scheduling.DaySlots | reservations/views.py:110-115 | A closed day offers no slots. |
| Scheduling.DaySlotsSound | reservations/views.py:110-154 | An offered slot lies on a working day, starts on the grid from opening, lasts the treatment, ends by closing, and overlaps no pending or confirmed reservation of the date. |
| Scheduling.DaySlotsSorted | reservations/views.py:123-154 | Offered slots are earliest first. |
| Scheduling.DaySlotsComplete | reservations/views.py:123-154 | Every free, fitting grid start of a working day is offered. |
| Scheduling.OnlyBlockingReservationsMatter | reservations/views.py:117-121 | Adding a cancelled or completed reservation, or one of another date, leaves the offered slots unchanged. |
| Scheduling.SlotsPassGuard | reservations/views.py:133-146 | For a treatment of positive length, every offered slot passes the availability guard, both as written and corrected. |
| Scheduling.ZeroDurationClosingSlot | reservations/views.py:133 | A zero-length treatment is offered a slot at closing time, which the guard refuses. |
| Treatments.ActiveTreatment | reservations/views.py:104-108 | The lookup succeeds exactly for a known, active id and returns that treatment. |
| Scheduling.AvailableSlots | reservations/views.py:95-115 | Missing parameters is reported exactly when a parameter is absent. Invalid treatment or date is reported exactly when one is unparsable or the treatment is unknown or inactive. Otherwise the answer is the day's slots, empty on a closed day. |
| Scheduling.CreateReservation | reservations/views.py:159-204 | Missing fields, then invalid data, are reported exactly when they occur. A well-formed request is refused as unavailable exactly when the guard as written fails, and as a duplicate exactly when the guard passes but the (date, start) pair is taken. Every other request succeeds. A refusal changes nothing and sends no mail. A success appends one confirmed reservation for the user, with an end derived from the treatment, and mails the user, then the admin. |
| Scheduling.WrappedBookingStored | reservations/views.py:180-189 | The view stores a Monday 19:45 booking of a 4h30 treatment with an end of 00:15. |
| Scheduling.CreatePreservesValid | reservations/models.py:27-31 | Creating keeps ids unique, keeps (date, start) unique, and keeps blocking reservations of a date disjoint. |
| Scheduling.FindOwned | reservations/views.py:222 | The lookup finds the first record with this id owned by this user, or reports that none exists. |
| Scheduling.CancelReservation | reservations/views.py:218-233 | Not found is reported exactly when the user owns no such record. Already cancelled is reported exactly when it is cancelled already. Otherwise only that record's status changes, to cancelled, and the admin is mailed. |
| Scheduling.CancelTwiceRefused | reservations/views.py:224-225 | A second cancel of the same reservation is refused and changes nothing. |
| Scheduling.CancelPreservesValid | reservations/views.py:224-228 | Cancelling keeps the store invariants, and the cancelled record blocks no date. |
| Storage.CleanDomain | naomi_face_studio/storage.py:29 | The domain is the stripped setting with every trailing '/' removed. |
| Storage.DomainBase | naomi_face_studio/storage.py:29-31 | The base always starts with "http". "https://" is added exactly when the cleaned domain does not start with "http". |
| Storage.FilePath | naomi_face_studio/storage.py:34 | The path starts with "media/" and is never longer than the joined text. For a plain relative name it is exactly "media/" + name. In general it is "media/" followed by the replaced name, where a leading '/' of the name merges with the separator. |
| Text.ReplaceConcat | naomi_face_studio/storage.py:34 | `replace('//', '/')` works left to right without looking back: a piece not ending in '/' is replaced independently of what follows it. |
| Text.ReplaceMergesPair | naomi_face_studio/storage.py:34 | Each "//" the pass meets becomes one '/', and the pass carries on after the pair. |
| Storage.TripleSlashKeepsTwo | naomi_face_studio/storage.py:34 | One pass of `replace('//', '/')` leaves "//" from "///". |
| Storage.CustomDomainUrl | naomi_face_studio/storage.py:22-36 | A URL is built exactly when the domain is set and not blank. It starts with "http" and is base + "/" + path. |
| MediaCleanup.ImageUrls | education/signals.py:31-39 | Empty content has no image URLs. |
| MediaCleanup.RelativePath | education/signals.py:130-134 | A key under "location/" (with a location set) loses exactly that prefix. Every other key is unchanged. |
| MediaCleanup.DeleteKey | education/signals.py:12-28 | A delete happens exactly when R2 is on and the path is non-empty. The key lies under the location, and its relative path is the path without leading slashes. |
| MediaCleanup.MediaSegment | education/signals.py:48-49 | The segment exists exactly when the URL contains "/media/". It starts right after the first "/media/" and runs to the next "/media/" or to the end of the URL, with no "/media/" inside it. |
| MediaCleanup.ExtractFilePath | education/signals.py:42-55 | No path for an empty URL or one without "/media/". Otherwise the path is the segment up to its first '?', or the whole segment when it has none. |
| MediaCleanup.ListingPrefix | education/signals.py:116-119 | The prefix lies under "location/" when a location is set, and is relative to "upload_dir/". |
| MediaCleanup.Listed | education/signals.py:122-129 | The listing is exactly the bucket keys under the prefix. |
| MediaCleanup.RelativePaths | education/signals.py:130-135 | Each listed key gives its relative path. |
| MediaCleanup.Orphans | education/signals.py:140-146 | The orphans are exactly the paths in the upload directory that no content uses. |
| MediaCleanup.DeleteKeys | education/signals.py:148-152 | Exactly the keys of the given paths are deleted. |
| MediaCleanup.CleanupOrphans | education/signals.py:103-106 | With R2 off, nothing is deleted. |
| MediaCleanup.CleanupOrphansExact | education/signals.py:103-158 | The sweep deletes exactly the bucket keys under the upload prefix whose relative path is unused. |
| MediaCleanup.UsedImagePathsExact | education/signals.py:58-100 | The used paths are exactly the non-empty paths extracted from an image URL of some description. |
| MediaCleanup.UrlKeys | education/signals.py:170-178 | The keys deleted for a list of URLs are exactly the keys of those URLs that have a "/media/" segment. |
| MediaCleanup.OnDelete | education/signals.py:161-178 | With R2 on, the handler deletes exactly the thumbnail (if set) and every "/media/" image of both descriptions. With R2 off it deletes nothing. |
| MediaCleanup.RemovedImageKeys | education/signals.py:192-205 | A field loses exactly the keys of the "/media/" images whose URLs are in its old content and not in its new content, and only when both contents are non-empty. |
| MediaCleanup.UpdateDeletesOnlyStoredFiles | education/signals.py:181-207 | Every file the pre-save handler deletes is one the pre-delete handler would delete for the stored record. |
| MediaCleanup.OnUpdate | education/signals.py:181-207 | Deletions happen only with R2 on, a truthy pk and a stored record. The old thumbnail goes when it was set and changed, plus each field's removed images. |
| MediaCleanup.SaveUnchangedDeletesNothing | treatments/signals.py:62-88 | Saving a record whose thumbnail and descriptions match the stored ones deletes nothing. |
| MediaCleanup.OnUpdateCorrected | education/signals.py:192-205 | The corrected handler deletes a subset of what the handler as written deletes. It never deletes a file the saved record still shows, and it deletes everything else the handler as written would. |
| MediaCleanup.CrossFieldDeletion | education/signals.py:193-205 | An image dropped from the Croatian text but kept in the English text is deleted as written and kept when corrected. |
| MediaLinks.StorageUrlPathRoundTrip | naomi_face_studio/storage.py:33-35 | The path extraction reads back exactly the name a custom-domain URL was built from. |
| MediaLinks.ReferencedUploadSurvivesCleanup | education/signals.py:140-146 | An upload shown in a description through its storage URL is never deleted by the sweep. |
| GiftVouchers.DeliveryEmail | gift_vouchers/models.py:43-47 | The result is one of the two stored addresses. It is the recipient's when the option is "recipient" and a recipient email is set, and the purchaser's otherwise. |
| GiftVouchers.Notifications | gift_vouchers/views.py:98-133 | The admin, then the purchaser, always. The recipient is added exactly when the option is "recipient" and the recipient email is set, so 2 or 3 mails. |
| GiftVouchers.DeliveryEmailNotified | gift_vouchers/views.py:122-133 | The delivery address is always mailed. A distinct recipient is mailed exactly when the voucher goes to them. |
| GiftVouchers.NewVoucher | gift_vouchers/views.py:57-69 | Every field is stored as submitted, except the recipient email, which is kept only for the "recipient" option and is blank otherwise. A new voucher is not yet sent. |
| GiftVouchers.SubmitVoucher | gift_vouchers/views.py:15-81 | Rate-limited, missing-field, malformed-id and invalid-treatment outcomes happen exactly in their cases, and each stores and mails nothing. Otherwise one voucher is appended and mailed in order. The order succeeds exactly when no send fails within its notifications. A failing send leaves only the mails before it sent, and the voucher is marked sent only on success. |
| GiftVouchers.AcceptedOrderDelivery | gift_vouchers/views.py:68 | An accepted order goes to the recipient exactly when the form chose "recipient" and gave an address. Only then are three mails sent. |

## Left out

- HTTP details are not modelled: JSON bodies, status codes, messages, templates, login and CSRF. Parsing (`strptime`, integer ids) becomes `Field`; the values that pass are given directly.
- Email subjects and bodies are not modelled, nor `EmailCollection.get_or_create` in both views. Only the ordered list of recipients is kept.
- Scheduling.CreateReservation: assumes every `send_mail` succeeds. A failing send in the source raises after the reservation is stored; gift vouchers model that case.
- Scheduling.CancelReservation: assumes the cancellation mail succeeds, for the same reason.
- Rate limiting and the honeypot are not modelled; the limiter's verdict is the boolean `limited`.
- The boto3 client, its errors (logged and swallowed) and list pagination are not modelled. The bucket is a sequence of keys, and a delete is recorded as its key.
- `extract_image_urls_from_html` is left as an uninterpreted function (`ImageExtractor`); the regex engine is not modelled.
- Python's set iteration order is not modelled: the pre-save handler returns a set of keys, not an ordered list.
- The post-save triggers are not modelled as events; `CleanupOrphans` takes the bucket listing and the used paths as arguments. The treatments post-save handler (treatments/signals.py:91-96) imports `cleanup_orphaned_ckeditor_uploads` from blogs/signals.py, which does not define it, so that handler would raise; it is not modelled.
- The fallback to the parent `S3Boto3Storage.url` is `None` in `Storage.CustomDomainUrl`.
- Time zones, `datetime` objects and the "HH:MM" JSON formatting of slots are not modelled. Slots carry minutes after midnight.
- Reservations.Weekday: its contract states only the range. The weekday follows from the ordinal by definition, and a per-day contract would need an ensures about neighbouring dates.
- Reservations.EndOnSave: Python's `datetime` stops at 9999-12-31, and adding the treatment length past that date raises `OverflowError` (reservations/models.py:41). The model has no upper date bound and does not model that error.
- Reservations.IsAvailableAsWritten: does not model the same year-9999 `OverflowError` of the addition at reservations/models.py:75; on 9999-12-31 the model answers where the source raises.
- Scheduling.AvailableSlots: does not model the year-9999 `OverflowError` of the slot loop's condition (reservations/views.py:133); on 9999-12-31, when opening time plus the treatment runs past midnight, the model returns an empty slot list where the source fails with a server error.
- Scheduling.CreateReservation: does not model that `OverflowError` either; on 9999-12-31 a booking running past midnight makes the source fail with a server error and store nothing, while the model may store it.
- Scheduling.NextId: stands in for the database sequence and only guarantees an id above every stored one.
- Concurrency is not modelled: two requests racing between the guard and the insert are covered only by the (date, start) unique constraint, which appears as `DuplicateSlot`.
- `MediaRecord` keeps only the fields the handlers read: pk, thumbnail and the two full descriptions.
- Price, slugs, `get_absolute_url`, `get_slug`, `__str__`, admin classes, the calendar and list views, contacts and core are outside this model.
- The gift-voucher form does not check `email_option` against the two choices, and `GiftVouchers.NewVoucher` stores any string as given, as the source does.

## Findings

| source | as written | input that shows it | evidently intended | confidence | as-written member | corrected member |
|---|---|---|---|---|---|---|
| reservations/models.py:72-80 | The end of the treatment is taken as a time of day after `timedelta` addition, so it wraps past midnight before the comparison with closing time. | Monday 2024-01-01, start 19:45, a 4h30 treatment: the end is 00:15, which is ≤ 20:00, so the slot is accepted, and `create_reservation` stores it (`Scheduling.WrappedBookingStored`). | A booking must end by closing time on the same day. | high; not executed | Reservations.WrappedEndAccepted | Reservations.IsAvailable |
| education/signals.py:192-205 | Removed images are computed per description field, and every removed URL is deleted. The same code is at treatments/signals.py:73-86 and blogs/signals.py:73-86. | Old record: the Croatian and English texts both show /media/a.png. Saved record: the Croatian text no longer shows it, the English text still does. media/a.png is deleted. | Delete only files that the saved record no longer references in any field. | medium; not executed | MediaCleanup.CrossFieldDeletion | MediaCleanup.OnUpdateCorrected |

=== FILE: gift_vouchers.dfy ===
/** Gift-voucher orders: the stored record, its delivery address, and the
    order form's validation and notification mail
    (gift_vouchers/models.py, gift_vouchers/views.py). */
module GiftVouchers {
  import opened Prelude
  import opened Treatments

  /** The two email-delivery choices of the form. */
  const PurchaserOption := "purchaser"
  const RecipientOption := "recipient"

  /** A stored order; `recipientEmail` is "" when none was kept. */
  datatype GiftVoucher = GiftVoucher(
    treatment: nat,
    emailOption: string,
    recipientName: string,
    personalisedMessage: string,
    fromName: string,
    purchaserFirstName: string,
    purchaserLastName: string,
    purchaserEmail: string,
    purchaserMobile: string,
    recipientEmail: string,
    isSent: bool)

  /** The recipient receives the voucher themselves. */
  predicate SendsToRecipient(v: GiftVoucher) {
    v.emailOption == RecipientOption && v.recipientEmail != ""
  }

  /** `get_delivery_email`: where the voucher goes. */
  function DeliveryEmail(v: GiftVoucher): (email: string)
    ensures email == v.recipientEmail || email == v.purchaserEmail
    ensures v.emailOption == PurchaserOption ==> email == v.purchaserEmail
    ensures v.recipientEmail == "" ==> email == v.purchaserEmail
    ensures SendsToRecipient(v) ==> email == v.recipientEmail
    ensures !SendsToRecipient(v) ==> email == v.purchaserEmail
  {
    if SendsToRecipient(v) then v.recipientEmail else v.purchaserEmail
  }

  /** The sends of `send_gift_voucher_emails`, in order: the admin, the
      purchaser, then the recipient when the voucher goes to them. */
  function Notifications(v: GiftVoucher): (mail: seq<Recipient>)
    ensures 2 <= |mail| <= 3
    ensures mail[0] == Admin && mail[1] == Address(v.purchaserEmail)
    ensures |mail| == 3 <==> SendsToRecipient(v)
    ensures |mail| == 3 ==> mail[2] == Address(v.recipientEmail)
  {
    [Admin, Address(v.purchaserEmail)] + (if SendsToRecipient(v) then [Address(v.recipientEmail)] else [])
  }

  /** Whoever the voucher is delivered to is among the addresses mailed,
      and the recipient is mailed only when the voucher is delivered to them. */
  lemma DeliveryEmailNotified(v: GiftVoucher)
    ensures Address(DeliveryEmail(v)) in Notifications(v)
    ensures v.recipientEmail != v.purchaserEmail ==>
      (Address(v.recipientEmail) in Notifications(v) <==> DeliveryEmail(v) == v.recipientEmail)
  {
    var mail := Notifications(v);
    if SendsToRecipient(v) {
      assert mail[2] == Address(v.recipientEmail);
    } else {
      assert mail[1] == Address(v.purchaserEmail);
    }
  }

  /** The posted form. Text fields read as "" when absent (`POST.get`
      returns `None` or the default, both false); `treatment` is the posted
      id, `Malformed` when it is not a number. */
  datatype VoucherForm = VoucherForm(
    treatment: Field<nat>,
    emailOption: string,
    recipientName: string,
    personalisedMessage: string,
    fromName: string,
    purchaserFirstName: string,
    purchaserLastName: string,
    purchaserEmail: string,
    purchaserMobile: string,
    recipientEmail: string)

  /** The eight required fields are all non-empty; the message and the
      recipient email are optional. */
  predicate AllRequired(f: VoucherForm) {
    && !f.treatment.Missing?
    && f.emailOption != ""
    && f.recipientName != ""
    && f.fromName != ""
    && f.purchaserFirstName != ""
    && f.purchaserLastName != ""
    && f.purchaserEmail != ""
    && f.purchaserMobile != ""
  }

  /** `MalformedTreatment` is the `ValueError` a non-numeric id raises in
      the treatment lookup, which the view does not catch; `SendFailed` is a
      failing `send_mail` (`fail_silently=False`), likewise uncaught. */
  datatype VoucherError = RateLimited | MissingRequired | MalformedTreatment | InvalidTreatment | SendFailed

  /** The stored orders after the view, what it answered, and the mail sent. */
  datatype Submission = Submission(vouchers: seq<GiftVoucher>, outcome: Result<GiftVoucher, VoucherError>, mail: seq<Recipient>)

  /** The record `GiftVoucher.objects.create` stores for a valid form: the
      recipient email is kept only for the "recipient" option. */
  function NewVoucher(f: VoucherForm, treatment: nat): (v: GiftVoucher)
    ensures v.recipientEmail != "" ==> v.emailOption == RecipientOption && v.recipientEmail == f.recipientEmail
    ensures f.emailOption == RecipientOption ==> v.recipientEmail == f.recipientEmail
    ensures !v.isSent
    ensures v.treatment == treatment && v.emailOption == f.emailOption
    ensures v.recipientName == f.recipientName && v.personalisedMessage == f.personalisedMessage
    ensures v.fromName == f.fromName
    ensures v.purchaserFirstName == f.purchaserFirstName && v.purchaserLastName == f.purchaserLastName
    ensures v.purchaserEmail == f.purchaserEmail && v.purchaserMobile == f.purchaserMobile
  {
    GiftVoucher(
      treatment, f.emailOption, f.recipientName, f.personalisedMessage, f.fromName,
      f.purchaserFirstName, f.purchaserLastName, f.purchaserEmail, f.purchaserMobile,
      if f.emailOption == RecipientOption then f.recipientEmail else "",
      false)
  }

  /** `gift_voucher_form` on POST. `limited` is the rate limiter's verdict;
      `failAt` is the position in `Notifications` of the send that raises,
      if any. The order is stored before any mail goes out and is marked
      sent only after every send. */
  function SubmitVoucher(f: VoucherForm, limited: bool, catalog: map<nat, Treatment>,
                         vouchers: seq<GiftVoucher>, failAt: Option<nat>): (s: Submission)
    ensures s.outcome == Err(RateLimited) <==> limited
    ensures s.outcome == Err(MissingRequired) <==> !limited && !AllRequired(f)
    ensures s.outcome == Err(MalformedTreatment) <==> !limited && AllRequired(f) && f.treatment.Malformed?
    ensures s.outcome == Err(InvalidTreatment) <==>
      !limited && AllRequired(f) && f.treatment.Given? && ActiveTreatment(catalog, f.treatment.value).None?
    ensures s.outcome.Err? && s.outcome != Err(SendFailed) ==> s.vouchers == vouchers && s.mail == []
    ensures !limited && AllRequired(f) && f.treatment.Given? && ActiveTreatment(catalog, f.treatment.value).Some? ==>
      (s.outcome.Ok? <==> failAt.None? || failAt.value >= |Notifications(NewVoucher(f, f.treatment.value))|)
    ensures s.outcome == Err(SendFailed) ==>
      failAt.Some? && s.mail == Notifications(NewVoucher(f, f.treatment.value))[..failAt.value]
    ensures s.outcome.Ok? || s.outcome == Err(SendFailed) ==>
      && f.treatment.Given? && ActiveTreatment(catalog, f.treatment.value).Some?
      && |s.vouchers| == |vouchers| + 1 && s.vouchers[..|vouchers|] == vouchers
      && var v := s.vouchers[|vouchers|];
         v == NewVoucher(f, f.treatment.value).(isSent := v.isSent)
         && s.mail <= Notifications(v)
         && (v.isSent <==> s.outcome.Ok?)
         && (s.outcome.Ok? <==> s.mail == Notifications(v))
         && (s.outcome.Ok? ==> s.outcome.value == v)
  {
    if limited then Submission(vouchers, Err(RateLimited), [])
    else if !AllRequired(f) then Submission(vouchers, Err(MissingRequired), [])
    else if f.treatment.Malformed? then Submission(vouchers, Err(MalformedTreatment), [])
    else if ActiveTreatment(catalog, f.treatment.value).None? then Submission(vouchers, Err(InvalidTreatment), [])
    else
      var v := NewVoucher(f, f.treatment.value);
      var mail := Notifications(v);
      if failAt.Some? && failAt.value < |mail| then
        Submission(vouchers + [v], Err(SendFailed), mail[..failAt.value])
      else
        var sent := v.(isSent := true);
        assert Notifications(sent) == mail;
        Submission(vouchers + [sent], Ok(sent), mail)
  }

  /** An accepted order is delivered to the recipient exactly when the form
      chose the "recipient" option and gave a recipient email, and only then
      are three emails sent. */
  lemma AcceptedOrderDelivery(f: VoucherForm, catalog: map<nat, Treatment>, vouchers: seq<GiftVoucher>, failAt: Option<nat>)
    requires SubmitVoucher(f, false, catalog, vouchers, failAt).outcome.Ok?
    ensures var v := SubmitVoucher(f, false, catalog, vouchers, failAt).outcome.value;
      && (SendsToRecipient(v) <==> f.emailOption == RecipientOption && f.recipientEmail != "")
      && DeliveryEmail(v) == (if f.emailOption == RecipientOption && f.recipientEmail != "" then f.recipientEmail else f.purchaserEmail)
      && (|SubmitVoucher(f, false, catalog, vouchers, failAt).mail| == 3 <==> SendsToRecipient(v))
  {
  }
}

=== FILE: media_cleanup.dfy ===
/** The R2 media clean-up signal handlers. education/signals.py,
    treatments/signals.py and blogs/signals.py carry line-for-line copies of
    the same handlers, so they are modelled once, over the fields the three
    models share (`MediaRecord`). Deleting an object is recorded as its key;
    the S3 client itself is not modelled. */
module MediaCleanup {
  import opened Prelude
  import opened Text

  /** Image URLs point into storage through this path segment. */
  const MediaMarker := "/media/"

  /** The settings the handlers read: `USE_R2`, `AWS_LOCATION` and
      `CKEDITOR_UPLOAD_PATH`. */
  datatype R2Settings = R2Settings(useR2: bool, location: string, uploadPath: string)

  /** The `src` attributes the regex of `extract_image_urls_from_html`
      finds in some HTML; left uninterpreted. */
  type ImageExtractor = string -> seq<string>

  /** `extract_image_urls_from_html`: empty content has no images. */
  function ImageUrls(extract: ImageExtractor, html: string): (urls: seq<string>)
    ensures html == "" ==> urls == []
    ensures html != "" ==> urls == extract(html)
  {
    if html == "" then [] else extract(html)
  }

  /** A listed key with the leading "location/" removed, when there is one. */
  function RelativePath(location: string, key: string): (path: string)
    ensures IsSuffix(path, key)
    ensures location != "" && IsPrefix(location + "/", key) ==> key == location + "/" + path
    ensures location == "" ==> path == key
    ensures !(location != "" && IsPrefix(location + "/", key)) ==> path == key
  {
    if location != "" && IsPrefix(location + "/", key) then key[|location| + 1..] else key
  }

  /** `delete_file_from_r2`: nothing when R2 is off or the path is empty;
      otherwise the path without leading slashes, under the location. */
  function DeleteKey(cfg: R2Settings, path: string): (key: Option<string>)
    ensures key.Some? <==> cfg.useR2 && path != ""
    ensures key.Some? ==> RelativePath(cfg.location, key.value) == LStrip(path, IsSlash)
    ensures key.Some? && cfg.location != "" ==> IsPrefix(cfg.location + "/", key.value)
  {
    if cfg.useR2 && path != "" then
      var stripped := LStrip(path, IsSlash);
      Some(if cfg.location != "" then cfg.location + "/" + stripped else stripped)
    else None
  }

  /** A string whose first occurrence of `pat` is at `j` has none in its first `j` characters. */
  lemma BeforeFirstOccurrence(s: string, pat: string, j: nat)
    requires |pat| > 0 && j <= |s|
    requires forall k :: 0 <= k < j ==> !OccursAt(s, pat, k)
    ensures !Contains(s[..j], pat)
  {
    forall k | 0 <= k && k + |pat| <= j
      ensures !OccursAt(s[..j], pat, k)
    {
      OccursInPrefix(s, j, pat, k);
    }
  }

  /** `url.split('/media/')[1]`: the text between the first "/media/" and the
      next one (or the end); `None` when there is no "/media/". */
  function MediaSegment(url: string): (segment: Option<string>)
    ensures segment.None? <==> !Contains(url, MediaMarker)
    ensures segment.Some? ==> !Contains(segment.value, MediaMarker)
    ensures segment.Some? ==>
      var rest := url[Find(url, MediaMarker).value + |MediaMarker|..];
      && IsPrefix(segment.value, rest)
      && (forall j :: 0 <= j < |segment.value| ==> !OccursAt(rest, MediaMarker, j))
      && (segment.value == rest || OccursAt(rest, MediaMarker, |segment.value|))
  {
    match Find(url, MediaMarker)
    case None => None
    case Some(i) =>
      var rest := url[i + |MediaMarker|..];
      match Find(rest, MediaMarker)
      case None => Some(rest)
      case Some(j) =>
        BeforeFirstOccurrence(rest, MediaMarker, j);
        Some(rest[..j])
  }

  /** `extract_file_path_from_url`: the media segment cut at the first '?';
      `None` for an empty URL or one without "/media/". */
  function ExtractFilePath(url: string): (path: Option<string>)
    ensures path.None? <==> url == "" || !Contains(url, MediaMarker)
    ensures path.Some? ==> '?' !in path.value && !Contains(path.value, MediaMarker)
    ensures path.Some? ==> IsPrefix(path.value, MediaSegment(url).value)
    ensures path.Some? ==>
      |path.value| == |MediaSegment(url).value| || MediaSegment(url).value[|path.value|] == '?'
  {
    if url == "" then None
    else match MediaSegment(url)
      case None => None
      case Some(segment) =>
        var p := TakeUntil(segment, '?');
        PrefixKeepsAbsence(segment, |p|, MediaMarker);
        Some(p)
  }

  /** The upload directory: `CKEDITOR_UPLOAD_PATH` without trailing slashes. */
  function UploadDir(cfg: R2Settings): (dir: string) {
    RStrip(cfg.uploadPath, IsSlash)
  }

  /** The prefix listed in the bucket: "location/upload/" or "upload/". */
  function ListingPrefix(cfg: R2Settings): (prefix: string)
    ensures cfg.location != "" ==> IsPrefix(cfg.location + "/", prefix)
    ensures RelativePath(cfg.location, prefix) == UploadDir(cfg) + "/"
  {
    if cfg.location != "" then cfg.location + "/" + UploadDir(cfg) + "/" else UploadDir(cfg) + "/"
  }

  /** The keys of the bucket under a prefix, in bucket order (every page of
      `list_objects_v2`). */
  function Listed(bucket: seq<string>, prefix: string): (keys: seq<string>)
    ensures forall k :: k in keys <==> k in bucket && IsPrefix(prefix, k)
    decreases |bucket|
  {
    if bucket == [] then []
    else (if IsPrefix(prefix, bucket[0]) then [bucket[0]] else []) + Listed(bucket[1..], prefix)
  }

  function RelativePaths(location: string, keys: seq<string>): (paths: seq<string>)
    ensures forall p :: p in paths <==> exists k :: k in keys && p == RelativePath(location, k)
    decreases |keys|
  {
    if keys == [] then [] else [RelativePath(location, keys[0])] + RelativePaths(location, keys[1..])
  }

  /** Uploads under the upload directory that no content uses. */
  function Orphans(uploadDir: string, paths: seq<string>, used: set<string>): (orphans: seq<string>)
    ensures forall p :: p in orphans <==> p in paths && IsPrefix(uploadDir + "/", p) && p !in used
    decreases |paths|
  {
    if paths == [] then []
    else
      (if IsPrefix(uploadDir + "/", paths[0]) && paths[0] !in used then [paths[0]] else []) +
      Orphans(uploadDir, paths[1..], used)
  }

  /** One `delete_file_from_r2` per path, keeping the keys actually deleted. */
  function DeleteKeys(cfg: R2Settings, paths: seq<string>): (keys: seq<string>)
    ensures forall k :: k in keys <==> exists p :: p in paths && DeleteKey(cfg, p) == Some(k)
    decreases |paths|
  {
    if paths == [] then [] else OptionToSeq(DeleteKey(cfg, paths[0])) + DeleteKeys(cfg, paths[1..])
  }

  /** `cleanup_orphaned_ckeditor_uploads` given the bucket's keys and the
      set of paths content uses: the keys it deletes. */
  function CleanupOrphans(cfg: R2Settings, bucket: seq<string>, used: set<string>): (deleted: seq<string>)
    ensures !cfg.useR2 ==> deleted == []
  {
    if !cfg.useR2 then []
    else
      var listed := Listed(bucket, ListingPrefix(cfg));
      var orphans := Orphans(UploadDir(cfg), RelativePaths(cfg.location, listed), used);
      DeleteKeys(cfg, orphans)
  }

  /** An upload directory as configured ("uploads/"): something other than
      slashes, not starting with one. */
  predicate PlainUploadDir(cfg: R2Settings) {
    UploadDir(cfg) != "" && UploadDir(cfg)[0] != '/'
  }

  /** A key listed under the prefix maps to a relative path inside the
      upload directory, and deleting that path deletes the key itself. */
  lemma ListedKeyRoundTrip(cfg: R2Settings, key: string)
    requires cfg.useR2 && PlainUploadDir(cfg)
    requires IsPrefix(ListingPrefix(cfg), key)
    ensures IsPrefix(UploadDir(cfg) + "/", RelativePath(cfg.location, key))
    ensures DeleteKey(cfg, RelativePath(cfg.location, key)) == Some(key)
  {
    var up := UploadDir(cfg) + "/";
    var p := RelativePath(cfg.location, key);
    if cfg.location != "" {
      var loc := cfg.location + "/";
      assert IsPrefix(loc, key) by {
        assert key[..|loc|] == ListingPrefix(cfg)[..|loc|];
      }
      assert key == loc + p;
      assert ListingPrefix(cfg) == loc + up;
      assert p[..|up|] == key[|loc|..|loc| + |up|];
    }
    assert p[0] == up[0];
    LStripNoop(p, IsSlash);
  }

  /** The orphan clean-up deletes exactly the keys listed under the upload
      prefix whose relative path no content uses; in particular it never
      deletes a used path, and everything it deletes exists in the bucket. */
  lemma CleanupOrphansExact(cfg: R2Settings, bucket: seq<string>, used: set<string>)
    requires PlainUploadDir(cfg)
    ensures forall k :: k in CleanupOrphans(cfg, bucket, used) <==>
      cfg.useR2 && k in bucket && IsPrefix(ListingPrefix(cfg), k) && RelativePath(cfg.location, k) !in used
  {
    if cfg.useR2 {
      var listed := Listed(bucket, ListingPrefix(cfg));
      var paths := RelativePaths(cfg.location, listed);
      var orphans := Orphans(UploadDir(cfg), paths, used);
      forall k | k in CleanupOrphans(cfg, bucket, used)
        ensures k in bucket && IsPrefix(ListingPrefix(cfg), k) && RelativePath(cfg.location, k) !in used
      {
        var p :| p in orphans && DeleteKey(cfg, p) == Some(k);
        var k0 :| k0 in listed && p == RelativePath(cfg.location, k0);
        ListedKeyRoundTrip(cfg, k0);
      }
      forall k | k in bucket && IsPrefix(ListingPrefix(cfg), k) && RelativePath(cfg.location, k) !in used
        ensures k in CleanupOrphans(cfg, bucket, used)
      {
        ListedKeyRoundTrip(cfg, k);
        assert RelativePath(cfg.location, k) in paths;
      }
    }
  }

  /** The non-empty paths read out of some image URLs. */
  function UrlPaths(urls: seq<string>): (paths: set<string>)
    decreases |urls|
  {
    if urls == [] then {}
    else
      (match ExtractFilePath(urls[0]) case Some(p) => if p != "" then {p} else {} case None => {}) +
      UrlPaths(urls[1..])
  }

  /** `get_all_used_image_paths`: the loop over the description fields of
      every blog, treatment and education record, adding each non-empty
      extracted path to the set. */
  function UsedImagePaths(descriptions: seq<string>, extract: ImageExtractor): (used: set<string>)
    ensures descriptions == [] ==> used == {}
    decreases |descriptions|
  {
    if descriptions == [] then {}
    else UrlPaths(ImageUrls(extract, descriptions[0])) + UsedImagePaths(descriptions[1..], extract)
  }

  lemma {:induction false} UrlPathsExact(urls: seq<string>, p: string)
    ensures p in UrlPaths(urls) <==> p != "" && exists u :: u in urls && ExtractFilePath(u) == Some(p)
    decreases |urls|
  {
    if urls != [] {
      UrlPathsExact(urls[1..], p);
      if exists u :: u in urls && ExtractFilePath(u) == Some(p) {
        var u :| u in urls && ExtractFilePath(u) == Some(p);
        if u != urls[0] {
          assert u in urls[1..];
        }
      }
    }
  }

  /** The used paths are exactly the non-empty paths extracted from an image
      URL of some description. */
  lemma {:induction false} UsedImagePathsExact(descriptions: seq<string>, extract: ImageExtractor, p: string)
    ensures p in UsedImagePaths(descriptions, extract) <==>
      p != "" && exists d, u :: d in descriptions && u in ImageUrls(extract, d) && ExtractFilePath(u) == Some(p)
    decreases |descriptions|
  {
    if descriptions != [] {
      UsedImagePathsExact(descriptions[1..], extract, p);
      UrlPathsExact(ImageUrls(extract, descriptions[0]), p);
      if exists d, u :: d in descriptions && u in ImageUrls(extract, d) && ExtractFilePath(u) == Some(p) {
        var d, u :| d in descriptions && u in ImageUrls(extract, d) && ExtractFilePath(u) == Some(p);
        if d != descriptions[0] {
          assert d in descriptions[1..];
        }
      }
    }
  }

  /** The thumbnail and description fields shared by `Treatment`, `Blog` and
      `Education`, with the primary key (`None` before the first save). */
  datatype MediaRecord = MediaRecord(pk: Option<nat>, thumbnail: string, descriptionHr: string, descriptionEn: string)

  /** The key deleted for an image URL: that of its "/media/" segment. */
  function UrlKey(cfg: R2Settings, url: string): (key: Option<string>)
  {
    match MediaSegment(url)
    case None => None
    case Some(path) => DeleteKey(cfg, path)
  }

  /** The deletions for the image URLs of one description. */
  function UrlKeys(cfg: R2Settings, urls: seq<string>): (keys: seq<string>)
    ensures forall k :: k in keys <==> exists u :: u in urls && UrlKey(cfg, u) == Some(k)
    decreases |urls|
  {
    if urls == [] then []
    else
      var rest := UrlKeys(cfg, urls[1..]);
      if UrlKey(cfg, urls[0]).Some? then [UrlKey(cfg, urls[0]).value] + rest else rest
  }

  /** The pre-delete handler: the thumbnail, if set, then every "/media/"
      image of the Croatian and the English description. */
  function OnDelete(cfg: R2Settings, instance: MediaRecord, extract: ImageExtractor): (keys: seq<string>)
    ensures !cfg.useR2 ==> keys == []
    ensures forall k :: k in keys <==>
      (instance.thumbnail != "" && DeleteKey(cfg, instance.thumbnail) == Some(k)) ||
      (exists u :: u in ImageUrls(extract, instance.descriptionHr) && UrlKey(cfg, u) == Some(k)) ||
      (exists u :: u in ImageUrls(extract, instance.descriptionEn) && UrlKey(cfg, u) == Some(k))
  {
    if !cfg.useR2 then []
    else
      (if instance.thumbnail != "" then OptionToSeq(DeleteKey(cfg, instance.thumbnail)) else []) +
      UrlKeys(cfg, ImageUrls(extract, instance.descriptionHr)) +
      UrlKeys(cfg, ImageUrls(extract, instance.descriptionEn))
  }

  /** Python's truthiness of `instance.pk`: set and not zero. */
  predicate HasPk(r: MediaRecord) {
    r.pk.Some? && r.pk.value != 0
  }

  /** `key` belongs to an image whose URL was in the old content of a field
      and is not in its new content, both contents being non-empty. */
  ghost predicate RemovedFrom(cfg: R2Settings, oldHtml: string, newHtml: string, extract: ImageExtractor, key: string) {
    oldHtml != "" && newHtml != "" &&
    exists u :: u in extract(oldHtml) && u !in extract(newHtml) && UrlKey(cfg, u) == Some(key)
  }

  /** The URLs of `urls` that are not in `gone`, in order. */
  function Without(urls: seq<string>, gone: seq<string>): (kept: seq<string>)
    ensures forall u :: u in kept <==> u in urls && u !in gone
    decreases |urls|
  {
    if urls == [] then []
    else (if urls[0] in gone then [] else [urls[0]]) + Without(urls[1..], gone)
  }

  /** The deletions for one description field on update:
      `set(old_images) - set(new_images)`, computed only when both contents
      are non-empty, each URL with a "/media/" segment giving its key (the
      segment is not cut at '?'). */
  function RemovedImageKeys(cfg: R2Settings, oldHtml: string, newHtml: string, extract: ImageExtractor): (keys: set<string>)
    ensures forall k :: k in keys <==> RemovedFrom(cfg, oldHtml, newHtml, extract, k)
  {
    if oldHtml == "" || newHtml == "" then {}
    else
      var removed := UrlKeys(cfg, Without(ImageUrls(extract, oldHtml), ImageUrls(extract, newHtml)));
      set k | k in removed
  }

  /** The pre-save handler as written. It needs R2, a non-zero primary key
      and a stored record under it (`DoesNotExist` is swallowed); the old thumbnail goes when it was set and the
      new one differs, and each field loses the images it no longer shows.
      Python's set iteration order is not modelled, so the result is a set. */
  function OnUpdate(cfg: R2Settings, instance: MediaRecord, stored: map<nat, MediaRecord>, extract: ImageExtractor): (keys: set<string>)
    ensures keys != {} ==> cfg.useR2 && HasPk(instance) && instance.pk.value in stored
    ensures cfg.useR2 && HasPk(instance) && instance.pk.value in stored ==>
      var prev := stored[instance.pk.value];
      forall k :: k in keys <==>
        (prev.thumbnail != "" && prev.thumbnail != instance.thumbnail && DeleteKey(cfg, prev.thumbnail) == Some(k)) ||
        RemovedFrom(cfg, prev.descriptionHr, instance.descriptionHr, extract, k) ||
        RemovedFrom(cfg, prev.descriptionEn, instance.descriptionEn, extract, k)
  {
    if !cfg.useR2 || !HasPk(instance) || instance.pk.value !in stored then {}
    else
      var prev := stored[instance.pk.value];
      (if prev.thumbnail != "" && prev.thumbnail != instance.thumbnail
       then (match DeleteKey(cfg, prev.thumbnail) case None => {} case Some(k) => {k})
       else {}) +
      RemovedImageKeys(cfg, prev.descriptionHr, instance.descriptionHr, extract) +
      RemovedImageKeys(cfg, prev.descriptionEn, instance.descriptionEn, extract)
  }

  /** Saving a record whose thumbnail and descriptions equal the stored ones
      deletes nothing. */
  lemma SaveUnchangedDeletesNothing(cfg: R2Settings, instance: MediaRecord, stored: map<nat, MediaRecord>, extract: ImageExtractor)
    requires instance.pk.Some? && instance.pk.value in stored
    requires var prev := stored[instance.pk.value];
      prev.thumbnail == instance.thumbnail &&
      prev.descriptionHr == instance.descriptionHr && prev.descriptionEn == instance.descriptionEn
    ensures OnUpdate(cfg, instance, stored, extract) == {}
  {
    var prev := stored[instance.pk.value];
    assert forall k :: !RemovedFrom(cfg, prev.descriptionHr, instance.descriptionHr, extract, k);
    assert forall k :: !RemovedFrom(cfg, prev.descriptionEn, instance.descriptionEn, extract, k);
  }

  /** An update only ever deletes files the stored record showed: each key
      is one the delete handler would remove for the stored record. */
  lemma UpdateDeletesOnlyStoredFiles(cfg: R2Settings, instance: MediaRecord, stored: map<nat, MediaRecord>, extract: ImageExtractor)
    requires instance.pk.Some? && instance.pk.value in stored
    ensures forall k :: k in OnUpdate(cfg, instance, stored, extract) ==> k in OnDelete(cfg, stored[instance.pk.value], extract)
  {
    var prev := stored[instance.pk.value];
    forall k | k in OnUpdate(cfg, instance, stored, extract)
      ensures k in OnDelete(cfg, prev, extract)
    {
      if RemovedFrom(cfg, prev.descriptionHr, instance.descriptionHr, extract, k) {
        var u :| u in extract(prev.descriptionHr) && u !in extract(instance.descriptionHr) && UrlKey(cfg, u) == Some(k);
        assert u in ImageUrls(extract, prev.descriptionHr);
      } else if RemovedFrom(cfg, prev.descriptionEn, instance.descriptionEn, extract, k) {
        var u :| u in extract(prev.descriptionEn) && u !in extract(instance.descriptionEn) && UrlKey(cfg, u) == Some(k);
        assert u in ImageUrls(extract, prev.descriptionEn);
      }
    }
  }

  /** The pre-save handler corrected: a key the saved record still uses (its
      thumbnail, or an image of either description) is never deleted. */
  function OnUpdateCorrected(cfg: R2Settings, instance: MediaRecord, stored: map<nat, MediaRecord>, extract: ImageExtractor): (keys: set<string>)
    ensures keys <= OnUpdate(cfg, instance, stored, extract)
    ensures forall u, k ::
      ((u in ImageUrls(extract, instance.descriptionHr) || u in ImageUrls(extract, instance.descriptionEn)) && UrlKey(cfg, u) == Some(k)) ==>
      k !in keys
    ensures instance.thumbnail != "" && DeleteKey(cfg, instance.thumbnail).Some? ==>
      DeleteKey(cfg, instance.thumbnail).value !in keys
    ensures forall k :: k in OnUpdate(cfg, instance, stored, extract) && k !in OnDelete(cfg, instance, extract) ==> k in keys
  {
    OnUpdate(cfg, instance, stored, extract) - (set k | k in OnDelete(cfg, instance, extract))
  }

  /** The settings, image and contents of the cross-field example below. */
  const ExampleSettings := R2Settings(true, "media", "uploads/")
  const ExampleUrl := "/media/a.png"
  const ExampleKey := "media/a.png"

  /** HTML "A" shows the example image; any other content shows none. */
  function ExampleImages(html: string): (urls: seq<string>) {
    if html == "A" then [ExampleUrl] else []
  }

  lemma ExampleUrlKey()
    ensures UrlKey(ExampleSettings, ExampleUrl) == Some(ExampleKey)
  {
    assert Find(ExampleUrl, MediaMarker) == Some(0);
    assert Find("a.png", MediaMarker) == None;
    assert MediaSegment(ExampleUrl) == Some("a.png");
    LStripNoop("a.png", IsSlash);
    assert "media" + "/" + "a.png" == ExampleKey;
  }

  /** An image dropped from the Croatian description but still shown in the
      English one: the handler as written deletes it, the corrected one keeps it. */
  lemma CrossFieldDeletion()
    ensures
      var prev := MediaRecord(Some(1), "", "A", "A");
      var saved := MediaRecord(Some(1), "", "B", "A");
      && ExampleKey in OnUpdate(ExampleSettings, saved, map[1 := prev], ExampleImages)
      && ExampleKey in OnDelete(ExampleSettings, saved, ExampleImages)
      && ExampleKey !in OnUpdateCorrected(ExampleSettings, saved, map[1 := prev], ExampleImages)
  {
    var prev := MediaRecord(Some(1), "", "A", "A");
    var saved := MediaRecord(Some(1), "", "B", "A");
    ExampleUrlKey();
    assert ExampleUrl in ExampleImages("A") && ExampleUrl !in ExampleImages("B");
    assert RemovedFrom(ExampleSettings, prev.descriptionHr, saved.descriptionHr, ExampleImages, ExampleKey);
    assert ExampleUrl in ImageUrls(ExampleImages, saved.descriptionEn);
  }
}

=== FILE: media_links.dfy ===
/** How the URLs the storage hands out meet the path extraction and the
    orphan clean-up of the signal handlers. */
module MediaLinks {
  import opened Prelude
  import opened Text
  import opened Storage
  import opened MediaCleanup

  /** The URL base holds no "/media/", not even one that runs on into the
      "/media/" the storage appends ("https://cdn.example.com/media" fails). */
  predicate MarkerFreeBase(base: string) {
    forall i :: 0 <= i < |base| ==> !OccursAt(base + MediaMarker, MediaMarker, i)
  }

  /** An upload name as the editor stores it: non-empty, relative, with no
      "//", no query and no "/media/" of its own. */
  ghost predicate PlainName(name: string) {
    && name != ""
    && name[0] != '/'
    && NoDoubleSlash(name)
    && '?' !in name
    && !Contains(name, MediaMarker)
  }

  /** Under a marker-free base, the first "/media/" of `base + "/media/" + name` is the appended one. */
  lemma FirstMarkerAfterBase(base: string, name: string)
    requires MarkerFreeBase(base)
    ensures Find(base + MediaMarker + name, MediaMarker) == Some(|base|)
  {
    var url := base + MediaMarker + name;
    assert url == (base + MediaMarker) + name;
    assert url[|base|..|base| + |MediaMarker|] == MediaMarker;
    assert OccursAt(url, MediaMarker, |base|);
    forall i | 0 <= i < |base|
      ensures !OccursAt(url, MediaMarker, i)
    {
      OccursInConcat(base + MediaMarker, name, MediaMarker, i);
    }
  }

  /** The media segment of `base + "/media/" + name` is `name` itself. */
  lemma SegmentAfterBase(base: string, name: string)
    requires MarkerFreeBase(base)
    requires !Contains(name, MediaMarker)
    ensures MediaSegment(base + MediaMarker + name) == Some(name)
  {
    var url := base + MediaMarker + name;
    FirstMarkerAfterBase(base, name);
    assert url[|base| + |MediaMarker|..] == name;
  }

  lemma TakeUntilAbsent(s: string, c: char)
    requires c !in s
    ensures TakeUntil(s, c) == s
  {
  }

  /** The path read out of `base + "/media/" + name` is `name`. */
  lemma ExtractAfterBase(base: string, name: string)
    requires MarkerFreeBase(base)
    requires !Contains(name, MediaMarker) && '?' !in name
    ensures ExtractFilePath(base + MediaMarker + name) == Some(name)
  {
    SegmentAfterBase(base, name);
    TakeUntilAbsent(name, '?');
  }

  /** The custom-domain URL of a plain name is the base, "/media/", then the name. */
  lemma CustomDomainUrlShape(domain: string, name: string)
    requires StripSpace(domain) != ""
    requires name != "" && name[0] != '/' && NoDoubleSlash(name)
    ensures CustomDomainUrl(Some(domain), name) == Some(DomainBase(domain) + MediaMarker + name)
  {
    var url := CustomDomainUrl(Some(domain), name);
    assert url == Some(DomainBase(domain) + "/" + FilePath(name));
    FilePathPlain(name);
    JoinMarker(DomainBase(domain), name);
  }

  lemma FilePathPlain(name: string)
    requires name != "" && name[0] != '/' && NoDoubleSlash(name)
    ensures FilePath(name) == "media/" + name
  {
  }

  lemma JoinMarker(base: string, name: string)
    ensures base + "/" + ("media/" + name) == base + MediaMarker + name
  {
  }

  /** A file served through the custom domain is found again by the path
      extraction: `extract_file_path_from_url(storage.url(name)) == name`. */
  lemma StorageUrlPathRoundTrip(domain: string, name: string)
    requires StripSpace(domain) != ""
    requires MarkerFreeBase(DomainBase(domain))
    requires PlainName(name)
    ensures CustomDomainUrl(Some(domain), name).Some?
    ensures ExtractFilePath(CustomDomainUrl(Some(domain), name).value) == Some(name)
  {
    CustomDomainUrlShape(domain, name);
    ExtractAfterBase(DomainBase(domain), name);
  }

  /** With `AWS_LOCATION` equal to the storage location, an upload that a
      description shows through its custom-domain URL is never deleted by
      the orphan clean-up. */
  lemma ReferencedUploadSurvivesCleanup(cfg: R2Settings, domain: string, name: string,
                                        bucket: seq<string>, descriptions: seq<string>,
                                        extract: ImageExtractor, d: string)
    requires cfg.location == Location && PlainUploadDir(cfg)
    requires StripSpace(domain) != ""
    requires MarkerFreeBase(DomainBase(domain))
    requires PlainName(name)
    requires d in descriptions
    requires CustomDomainUrl(Some(domain), name).Some? &&
      CustomDomainUrl(Some(domain), name).value in ImageUrls(extract, d)
    ensures Location + "/" + name !in CleanupOrphans(cfg, bucket, UsedImagePaths(descriptions, extract))
  {
    var url := CustomDomainUrl(Some(domain), name).value;
    StorageUrlPathRoundTrip(domain, name);
    var used := UsedImagePaths(descriptions, extract);
    UsedImagePathsExact(descriptions, extract, name);
    assert name in used;
    CleanupOrphansExact(cfg, bucket, used);
    var key := Location + "/" + name;
    assert IsPrefix(cfg.location + "/", key);
    assert RelativePath(cfg.location, key) == name;
  }
}

=== FILE: prelude.dfy ===
/** Failure-carrying datatypes shared by every part of the model. */
module Prelude {

  /** A value that may be absent (Python's `None`). */
  datatype Option<+T> = None | Some(value: T)

  /** The outcome of an operation that may be refused with an error. */
  datatype Result<+T, +E> = Ok(value: T) | Err(error: E)

  /** A request field as the views see it: absent or empty (falsy in Python),
      present but not parseable (`strptime` or an integer key raising
      `ValueError`), or parsed to a value. */
  datatype Field<+T> = Missing | Malformed | Given(value: T)

  /** Who a notification email is addressed to. */
  datatype Recipient = Admin | Address(email: string)

  function OptionToSeq<T>(o: Option<T>): (s: seq<T>)
  {
    match o
    case None => []
    case Some(x) => [x]
  }
}

=== FILE: reservations.dfy ===
/** The reservation record, the weekly working hours, the end time derived on
    save and the availability guard (reservations/models.py). */
module Reservations {
  import opened Prelude
  import opened Treatments

  const MinutesPerDay := 24 * 60

  /** A time of day (Python's `datetime.time`), in whole minutes after midnight. */
  type Minute = m: int | 0 <= m < MinutesPerDay

  /** A calendar date as Python's proleptic Gregorian ordinal
      (`date.toordinal()`, 1 for 0001-01-01, which was a Monday). */
  datatype Date = Date(ordinal: int)

  /** Python's `date.weekday()`: 0 for Monday through 6 for Sunday. */
  function Weekday(d: Date): (w: int)
    ensures 0 <= w < 7
  {
    (d.ordinal + 6) % 7
  }

  datatype Status = Pending | Confirmed | Cancelled | Completed

  /** A reservation created without an explicit status is confirmed. */
  const DefaultStatus := Confirmed

  /** A stored reservation; `end` is filled in by `EndOnSave` before storing. */
  datatype Reservation = Reservation(
    id: nat,
    user: nat,
    treatment: nat,
    date: Date,
    start: Minute,
    end: Minute,
    status: Status)

  /** Opening and closing time of a working day. */
  datatype Window = Window(open: Minute, close: Minute)

  /** The fixed weekly table: Monday and Thursday 12:00-20:00, Tuesday,
      Wednesday and Friday 09:00-17:00, closed on Saturday, Sunday and for any
      other key. */
  function WorkingHours(dayOfWeek: int): (w: Option<Window>)
    ensures w.Some? <==> 0 <= dayOfWeek <= 4
    ensures w.Some? ==> w.value.open < w.value.close && w.value.close - w.value.open == 8 * 60
    ensures w.Some? ==> w.value.open % 15 == 0 && w.value.close % 15 == 0
    ensures dayOfWeek == 0 || dayOfWeek == 3 ==> w == Some(Window(12 * 60, 20 * 60))
    ensures dayOfWeek == 1 || dayOfWeek == 2 || dayOfWeek == 4 ==> w == Some(Window(9 * 60, 17 * 60))
  {
    if dayOfWeek == 0 || dayOfWeek == 3 then Some(Window(12 * 60, 20 * 60))
    else if dayOfWeek == 1 || dayOfWeek == 2 || dayOfWeek == 4 then Some(Window(9 * 60, 17 * 60))
    else None
  }

  /** Python's `(datetime.combine(d, t) + timedelta(minutes=m)).time()`: the
      time of day reached, wrapping past midnight. */
  function TimeOfDay(minutes: nat): (m: Minute) {
    minutes % MinutesPerDay
  }

  /** Minutes from `start` forward to `end` on a 24-hour clock. */
  function ClockDistance(start: Minute, end: Minute): (d: Minute) {
    (end - start) % MinutesPerDay
  }

  /** `Reservation.save`: an end time given in advance is kept; otherwise the
      end is the start plus the treatment's minutes, as a time of day. */
  function EndOnSave(start: Minute, preset: Option<Minute>, minutes: nat): (end: Minute)
    ensures preset.Some? ==> end == preset.value
    ensures preset.None? ==> ClockDistance(start, end) == minutes % MinutesPerDay
    ensures preset.None? && start + minutes < MinutesPerDay ==> end == start + minutes
  {
    match preset
    case Some(e) => e
    case None =>
      var e := TimeOfDay(start + minutes);
      assert (e - start) % MinutesPerDay == minutes % MinutesPerDay by {
        var q := (start + minutes) / MinutesPerDay;
        assert e - start == minutes - q * MinutesPerDay;
        ModShift(minutes, q);
      }
      e
  }

  lemma ModShift(a: int, q: int)
    ensures (a - q * MinutesPerDay) % MinutesPerDay == a % MinutesPerDay
  {
  }

  /** Half-open intervals [s1, e1) and [s2, e2) share a minute. */
  predicate Overlaps(s1: int, e1: int, s2: int, e2: int) {
    s1 < e2 && s2 < e1
  }

  /** Only pending and confirmed reservations on the same date occupy time. */
  predicate Blocks(r: Reservation, date: Date) {
    r.date == date && (r.status == Pending || r.status == Confirmed)
  }

  predicate NotExcluded(r: Reservation, exclude: Option<nat>) {
    exclude.None? || r.id != exclude.value
  }

  /** No blocking reservation on `date`, other than the excluded one, satisfies
      `existing.start < end && existing.end > start`. */
  predicate NoConflict(store: seq<Reservation>, date: Date, start: int, end: int, exclude: Option<nat>) {
    forall i :: 0 <= i < |store| && Blocks(store[i], date) && NotExcluded(store[i], exclude) ==>
      !Overlaps(start, end, store[i].start, store[i].end)
  }

  /** `Reservation.is_available` as the source computes it: the end is
      compared as a time of day, so an end that wraps past midnight looks
      early enough. */
  predicate IsAvailableAsWritten(date: Date, start: Minute, t: Treatment, store: seq<Reservation>, exclude: Option<nat>)
    ensures IsAvailableAsWritten(date, start, t, store, exclude) ==>
      && WorkingHours(Weekday(date)).Some?
      && WorkingHours(Weekday(date)).value.open <= start < WorkingHours(Weekday(date)).value.close
      && TimeOfDay(start + TotalMinutes(t)) <= WorkingHours(Weekday(date)).value.close
      && forall r :: r in store && Blocks(r, date) && NotExcluded(r, exclude) ==>
           !Overlaps(start, TimeOfDay(start + TotalMinutes(t)), r.start, r.end)
    ensures
      (&& WorkingHours(Weekday(date)).Some?
       && WorkingHours(Weekday(date)).value.open <= start < WorkingHours(Weekday(date)).value.close
       && TimeOfDay(start + TotalMinutes(t)) <= WorkingHours(Weekday(date)).value.close
       && forall r :: r in store && Blocks(r, date) && NotExcluded(r, exclude) ==>
            !Overlaps(start, TimeOfDay(start + TotalMinutes(t)), r.start, r.end))
      ==> IsAvailableAsWritten(date, start, t, store, exclude)
  {
    match WorkingHours(Weekday(date))
    case None => false
    case Some(w) =>
      var end := TimeOfDay(start + TotalMinutes(t));
      && w.open <= start < w.close
      && end <= w.close
      && NoConflict(store, date, start, end, exclude)
  }

  /** The availability guard with the end taken on the same day, so a
      treatment must finish by closing time. */
  predicate IsAvailable(date: Date, start: Minute, t: Treatment, store: seq<Reservation>, exclude: Option<nat>)
    ensures IsAvailable(date, start, t, store, exclude) ==>
      WorkingHours(Weekday(date)).Some? &&
      WorkingHours(Weekday(date)).value.open <= start &&
      start + TotalMinutes(t) <= WorkingHours(Weekday(date)).value.close
    ensures IsAvailable(date, start, t, store, exclude) ==>
      forall r :: r in store && Blocks(r, date) && NotExcluded(r, exclude) ==>
        !Overlaps(start, start + TotalMinutes(t), r.start, r.end)
    ensures
      (&& WorkingHours(Weekday(date)).Some?
       && WorkingHours(Weekday(date)).value.open <= start < WorkingHours(Weekday(date)).value.close
       && start + TotalMinutes(t) <= WorkingHours(Weekday(date)).value.close
       && forall r :: r in store && Blocks(r, date) && NotExcluded(r, exclude) ==>
            !Overlaps(start, start + TotalMinutes(t), r.start, r.end))
      ==> IsAvailable(date, start, t, store, exclude)
  {
    match WorkingHours(Weekday(date))
    case None => false
    case Some(w) =>
      var end := start + TotalMinutes(t);
      && w.open <= start < w.close
      && end <= w.close
      && NoConflict(store, date, start, end, exclude)
  }

  /** The corrected guard accepts exactly what the source's guard accepts,
      minus the bookings whose end runs past midnight. */
  lemma AvailableIffNoWrap(date: Date, start: Minute, t: Treatment, store: seq<Reservation>, exclude: Option<nat>)
    ensures IsAvailable(date, start, t, store, exclude) <==>
      IsAvailableAsWritten(date, start, t, store, exclude) && start + TotalMinutes(t) < MinutesPerDay
  {
  }

  /** A 4h30 treatment booked on a Monday (2024-01-01) at 19:45 ends at 00:15
      the next day; the source's guard accepts it, the corrected one does not. */
  lemma WrappedEndAccepted()
    ensures var monday := Date(738886);
      var t := Treatment(1, "", "", "", "", 4, 30, 0, 0, "", true);
      Weekday(monday) == 0 &&
      TimeOfDay(19 * 60 + 45 + TotalMinutes(t)) == 15 &&
      IsAvailableAsWritten(monday, 19 * 60 + 45, t, [], None) &&
      !IsAvailable(monday, 19 * 60 + 45, t, [], None)
  {
  }

  /** Any time of day inside the hours is a valid start, not only the
      15-minute grid: a one-hour treatment at 12:07 on a Monday is accepted
      by both guards. */
  lemma OffGridStartAccepted()
    ensures var monday := Date(738886);
      var t := Treatment(1, "", "", "", "", 1, 0, 0, 0, "", true);
      (12 * 60 + 7) % 15 != 0 &&
      IsAvailableAsWritten(monday, 12 * 60 + 7, t, [], None) &&
      IsAvailable(monday, 12 * 60 + 7, t, [], None)
  {
  }

  /** Database invariant: record ids are distinct. */
  predicate UniqueIds(store: seq<Reservation>) {
    forall i, j :: 0 <= i < j < |store| ==> store[i].id != store[j].id
  }

  /** Database invariant `unique_together = (date, start_time)`, over every
      status. */
  predicate UniqueSlots(store: seq<Reservation>) {
    forall i, j :: 0 <= i < j < |store| ==>
      !(store[i].date == store[j].date && store[i].start == store[j].start)
  }

  /** Booking invariant: blocking reservations on the same date do not share a minute. */
  predicate Disjoint(store: seq<Reservation>) {
    forall i, j :: 0 <= i < j < |store| && Blocks(store[i], store[j].date) && Blocks(store[j], store[j].date) ==>
      !Overlaps(store[i].start, store[i].end, store[j].start, store[j].end)
  }

  predicate Valid(store: seq<Reservation>) {
    UniqueIds(store) && UniqueSlots(store) && Disjoint(store)
  }
}

=== FILE: scheduling.dfy ===
/** The booking views: the free-slot finder, the create guard and the cancel
    transition (reservations/views.py). */
module Scheduling {
  import opened Prelude
  import opened Treatments
  import opened Reservations

  /** Candidate starts are this many minutes apart. */
  const SlotStep := 15

  /** A free interval, in minutes after midnight of the selected date. */
  datatype Slot = Slot(start: int, end: int)

  /** `t` is one of the candidate starts open, open + 15, open + 30, ... */
  predicate IsCandidate(open: int, t: int) {
    t >= open && (t - open) % SlotStep == 0
  }

  /** Pending and confirmed reservations of one date, in store order (the
      queryset the slot view reads). */
  function Blocking(store: seq<Reservation>, date: Date): (b: seq<Reservation>)
    ensures forall r :: r in b <==> r in store && Blocks(r, date)
    ensures |b| <= |store|
  {
    if store == [] then []
    else
      var rest := Blocking(store[..|store| - 1], date);
      var last := store[|store| - 1];
      assert store == store[..|store| - 1] + [last];
      if Blocks(last, date) then rest + [last] else rest
  }

  /** No reservation of `blocking` overlaps [start, end). */
  predicate Free(blocking: seq<Reservation>, start: int, end: int) {
    forall i :: 0 <= i < |blocking| ==> !Overlaps(start, end, blocking[i].start, blocking[i].end)
  }

  /** Reference definition of the slot loop: every candidate from `t` on whose
      interval ends by `close`, kept when it is free. */
  function SlotsFrom(t: int, close: int, duration: nat, blocking: seq<Reservation>): (slots: seq<Slot>)
    decreases close + SlotStep - t
  {
    if t + duration > close then []
    else
      (if Free(blocking, t, t + duration) then [Slot(t, t + duration)] else []) +
      SlotsFrom(t + SlotStep, close, duration, blocking)
  }

  lemma {:induction false} SlotsFromSound(t: int, close: int, duration: nat, blocking: seq<Reservation>)
    ensures forall s :: s in SlotsFrom(t, close, duration, blocking) ==>
      IsCandidate(t, s.start) && s.end == s.start + duration && s.end <= close &&
      Free(blocking, s.start, s.end)
    decreases close + SlotStep - t
  {
    if t + duration <= close {
      SlotsFromSound(t + SlotStep, close, duration, blocking);
    }
  }

  /** Starts strictly increase along the list. */
  predicate Increasing(slots: seq<Slot>) {
    forall i, j :: 0 <= i < j < |slots| ==> slots[i].start < slots[j].start
  }

  lemma PrependIncreasing(x: Slot, rest: seq<Slot>)
    requires Increasing(rest)
    requires forall s :: s in rest ==> x.start < s.start
    ensures Increasing([x] + rest)
  {
    var l := [x] + rest;
    forall i, j | 0 <= i < j < |l|
      ensures l[i].start < l[j].start
    {
      assert l[j] == rest[j - 1];
      if i > 0 {
        assert l[i] == rest[i - 1];
      }
    }
  }

  lemma {:induction false} SlotsFromSorted(t: int, close: int, duration: nat, blocking: seq<Reservation>)
    ensures Increasing(SlotsFrom(t, close, duration, blocking))
    decreases close + SlotStep - t
  {
    if t + duration <= close {
      var rest := SlotsFrom(t + SlotStep, close, duration, blocking);
      SlotsFromSorted(t + SlotStep, close, duration, blocking);
      SlotsFromSound(t + SlotStep, close, duration, blocking);
      if Free(blocking, t, t + duration) {
        PrependIncreasing(Slot(t, t + duration), rest);
      }
    }
  }

  lemma {:induction false} SlotsFromComplete(t: int, close: int, duration: nat, blocking: seq<Reservation>, u: int)
    requires IsCandidate(t, u) && u + duration <= close && Free(blocking, u, u + duration)
    ensures Slot(u, u + duration) in SlotsFrom(t, close, duration, blocking)
    decreases close + SlotStep - t
  {
    if u != t {
      assert IsCandidate(t + SlotStep, u);
      SlotsFromComplete(t + SlotStep, close, duration, blocking, u);
    }
  }

  /** The slot list for an opening window. */
  function Slots(w: Window, duration: nat, blocking: seq<Reservation>): (slots: seq<Slot>) {
    SlotsFrom(w.open, w.close, duration, blocking)
  }

  /** The loop of `get_available_slots`: start at opening time, keep going
      while the treatment still ends by closing time, test every blocking
      reservation for overlap (stopping at the first), step 15 minutes. */
  method GenerateSlots(w: Window, duration: nat, blocking: seq<Reservation>) returns (slots: seq<Slot>)
    ensures slots == Slots(w, duration, blocking)
  {
    slots := [];
    var current: int := w.open;
    while current + duration <= w.close
      invariant slots + SlotsFrom(current, w.close, duration, blocking) == Slots(w, duration, blocking)
      decreases w.close + SlotStep - current
    {
      var available := true;
      var i := 0;
      while i < |blocking|
        invariant 0 <= i <= |blocking|
        invariant available && Free(blocking[..i], current, current + duration)
      {
        var r := blocking[i];
        if !(current + duration <= r.start || current >= r.end) {
          available := false;
          break;
        }
        i := i + 1;
      }
      assert available <==> Free(blocking, current, current + duration) by {
        if available {
          assert blocking[..i] == blocking;
        }
      }
      if available {
        slots := slots + [Slot(current, current + duration)];
      }
      current := current + SlotStep;
    }
  }

  /** Slots offered for a date and treatment: none on a closed day. */
  function DaySlots(date: Date, t: Treatment, store: seq<Reservation>): (slots: seq<Slot>)
    ensures WorkingHours(Weekday(date)).None? ==> slots == []
  {
    match WorkingHours(Weekday(date))
    case None => []
    case Some(w) => Slots(w, TotalMinutes(t), Blocking(store, date))
  }

  /** Every offered slot starts on the 15-minute grid from opening time, lasts
      exactly the treatment, ends by closing time and overlaps no pending or
      confirmed reservation of that date. */
  lemma DaySlotsSound(date: Date, t: Treatment, store: seq<Reservation>, s: Slot)
    requires s in DaySlots(date, t, store)
    ensures WorkingHours(Weekday(date)).Some?
    ensures var w := WorkingHours(Weekday(date)).value;
      IsCandidate(w.open, s.start) && s.end == s.start + TotalMinutes(t) && s.end <= w.close
    ensures forall r :: r in store && Blocks(r, date) ==> !Overlaps(s.start, s.end, r.start, r.end)
  {
    var w := WorkingHours(Weekday(date)).value;
    var b := Blocking(store, date);
    SlotsFromSound(w.open, w.close, TotalMinutes(t), b);
    forall r | r in store && Blocks(r, date)
      ensures !Overlaps(s.start, s.end, r.start, r.end)
    {
      assert r in b;
      var k :| 0 <= k < |b| && b[k] == r;
    }
  }

  /** Offered slots come out earliest first, each start strictly later. */
  lemma DaySlotsSorted(date: Date, t: Treatment, store: seq<Reservation>)
    ensures Increasing(DaySlots(date, t, store))
  {
    match WorkingHours(Weekday(date))
    case None =>
    case Some(w) => SlotsFromSorted(w.open, w.close, TotalMinutes(t), Blocking(store, date));
  }

  /** Every grid start whose interval fits before closing and meets no
      pending or confirmed reservation of that date is offered. */
  lemma DaySlotsComplete(date: Date, t: Treatment, store: seq<Reservation>, u: int)
    requires WorkingHours(Weekday(date)).Some?
    requires var w := WorkingHours(Weekday(date)).value;
      IsCandidate(w.open, u) && u + TotalMinutes(t) <= w.close
    requires forall r :: r in store && Blocks(r, date) ==> !Overlaps(u, u + TotalMinutes(t), r.start, r.end)
    ensures Slot(u, u + TotalMinutes(t)) in DaySlots(date, t, store)
  {
    var w := WorkingHours(Weekday(date)).value;
    var b := Blocking(store, date);
    assert Free(b, u, u + TotalMinutes(t)) by {
      forall k | 0 <= k < |b|
        ensures !Overlaps(u, u + TotalMinutes(t), b[k].start, b[k].end)
      {
        assert b[k] in b;
      }
    }
    SlotsFromComplete(w.open, w.close, TotalMinutes(t), b, u);
  }

  /** Cancelled and completed reservations, and reservations of other dates,
      do not change the offered slots. */
  lemma OnlyBlockingReservationsMatter(date: Date, t: Treatment, store: seq<Reservation>, r: Reservation)
    requires !Blocks(r, date)
    ensures DaySlots(date, t, store + [r]) == DaySlots(date, t, store)
  {
    assert (store + [r])[..|store + [r]| - 1] == store;
  }

  /** For a treatment that takes time, every offered slot passes the guard
      `create_reservation` runs, both as written and corrected. */
  lemma SlotsPassGuard(date: Date, t: Treatment, store: seq<Reservation>, s: Slot)
    requires s in DaySlots(date, t, store)
    requires TotalMinutes(t) > 0
    ensures 0 <= s.start < MinutesPerDay
    ensures IsAvailable(date, s.start, t, store, None)
    ensures IsAvailableAsWritten(date, s.start, t, store, None)
  {
    DaySlotsSound(date, t, store, s);
    AvailableIffNoWrap(date, s.start, t, store, None);
  }

  /** A zero-length treatment is offered a slot starting at closing time,
      which the guard then refuses because it starts at closing. */
  lemma ZeroDurationClosingSlot(date: Date, t: Treatment, store: seq<Reservation>)
    requires WorkingHours(Weekday(date)).Some?
    requires TotalMinutes(t) == 0
    requires var c := WorkingHours(Weekday(date)).value.close;
      forall r :: r in store && Blocks(r, date) ==> !Overlaps(c, c, r.start, r.end)
    ensures var c := WorkingHours(Weekday(date)).value.close;
      Slot(c, c) in DaySlots(date, t, store) &&
      !IsAvailableAsWritten(date, c, t, store, None) &&
      !IsAvailable(date, c, t, store, None)
  {
    var w := WorkingHours(Weekday(date)).value;
    assert IsCandidate(w.open, w.close);
    DaySlotsComplete(date, t, store, w.close);
  }

  /** Parameters of the slot request: the treatment id and the date. */
  datatype SlotQuery = SlotQuery(treatmentId: Field<nat>, date: Field<Date>)

  datatype QueryError = MissingParameters | InvalidTreatmentOrDate

  /** `get_available_slots`: missing parameters, then an unknown, inactive or
      unparsable treatment or date, are errors; otherwise the day's slots. */
  function AvailableSlots(q: SlotQuery, catalog: map<nat, Treatment>, store: seq<Reservation>): (r: Result<seq<Slot>, QueryError>)
    ensures r == Err(MissingParameters) <==> q.treatmentId.Missing? || q.date.Missing?
    ensures r == Err(InvalidTreatmentOrDate) <==>
      !q.treatmentId.Missing? && !q.date.Missing? &&
      (q.treatmentId.Malformed? || q.date.Malformed? || ActiveTreatment(catalog, q.treatmentId.value).None?)
    ensures r.Ok? ==>
      q.treatmentId.Given? && q.date.Given? &&
      ActiveTreatment(catalog, q.treatmentId.value).Some? &&
      r.value == DaySlots(q.date.value, ActiveTreatment(catalog, q.treatmentId.value).value, store)
    ensures r.Ok? && WorkingHours(Weekday(q.date.value)).None? ==> r.value == []
  {
    if q.treatmentId.Missing? || q.date.Missing? then Err(MissingParameters)
    else if q.treatmentId.Malformed? || q.date.Malformed? then Err(InvalidTreatmentOrDate)
    else match ActiveTreatment(catalog, q.treatmentId.value)
      case None => Err(InvalidTreatmentOrDate)
      case Some(t) => Ok(DaySlots(q.date.value, t, store))
  }

  /** The booking store after a view, what the view answered, and the
      notification emails it sent. */
  datatype Step<T, E> = Step(store: seq<Reservation>, outcome: Result<T, E>, mail: seq<Recipient>)

  datatype User = User(id: nat, email: string)

  /** Body of the create request: treatment id, date and start time. */
  datatype BookingRequest = BookingRequest(treatmentId: Field<nat>, date: Field<Date>, start: Field<Minute>)

  /** `DuplicateSlot` is the database's `IntegrityError` on (date, start_time),
      which the view does not catch. */
  datatype BookingError = MissingFields | InvalidData | SlotUnavailable | DuplicateSlot

  /** An id above every stored one (the database's primary-key sequence). */
  function NextId(store: seq<Reservation>): (id: nat)
    ensures forall r :: r in store ==> r.id < id
  {
    if store == [] then 1
    else
      var rest := NextId(store[..|store| - 1]);
      var last := store[|store| - 1].id;
      assert store == store[..|store| - 1] + [store[|store| - 1]];
      if last + 1 > rest then last + 1 else rest
  }

  predicate SlotTaken(store: seq<Reservation>, date: Date, start: Minute) {
    exists i :: 0 <= i < |store| && store[i].date == date && store[i].start == start
  }

  /** All three request fields are present and parsable, and the treatment
      is a known, active one. */
  predicate WellFormed(req: BookingRequest, catalog: map<nat, Treatment>) {
    && req.treatmentId.Given? && req.date.Given? && req.start.Given?
    && ActiveTreatment(catalog, req.treatmentId.value).Some?
  }

  /** `create_reservation`: all three fields present and parsable, an active
      treatment, the guard as the source computes it, then a confirmed
      reservation whose end is derived from the treatment, and mail to the
      user and the admin. */
  function CreateReservation(req: BookingRequest, user: User, catalog: map<nat, Treatment>, store: seq<Reservation>): (step: Step<Reservation, BookingError>)
    ensures step.outcome.Err? ==> step.store == store && step.mail == []
    ensures step.outcome == Err(MissingFields) <==>
      req.treatmentId.Missing? || req.date.Missing? || req.start.Missing?
    ensures step.outcome == Err(InvalidData) <==>
      !(req.treatmentId.Missing? || req.date.Missing? || req.start.Missing?) &&
      (req.treatmentId.Malformed? || req.date.Malformed? || req.start.Malformed? ||
       ActiveTreatment(catalog, req.treatmentId.value).None?)
    ensures step.outcome == Err(SlotUnavailable) <==>
      WellFormed(req, catalog) &&
      !IsAvailableAsWritten(req.date.value, req.start.value, catalog[req.treatmentId.value], store, None)
    ensures step.outcome == Err(DuplicateSlot) <==>
      WellFormed(req, catalog) &&
      IsAvailableAsWritten(req.date.value, req.start.value, catalog[req.treatmentId.value], store, None) &&
      SlotTaken(store, req.date.value, req.start.value)
    ensures step.outcome.Ok? <==>
      WellFormed(req, catalog) &&
      IsAvailableAsWritten(req.date.value, req.start.value, catalog[req.treatmentId.value], store, None) &&
      !SlotTaken(store, req.date.value, req.start.value)
    ensures step.outcome.Ok? ==>
      var r := step.outcome.value;
      && step.store == store + [r]
      && r == Reservation(r.id, user.id, req.treatmentId.value, req.date.value, req.start.value,
                          EndOnSave(req.start.value, None, TotalMinutes(catalog[req.treatmentId.value])),
                          DefaultStatus)
      && step.mail == [Address(user.email), Admin]
  {
    if req.treatmentId.Missing? || req.date.Missing? || req.start.Missing? then
      Step(store, Err(MissingFields), [])
    else if req.treatmentId.Malformed? || req.date.Malformed? || req.start.Malformed? then
      Step(store, Err(InvalidData), [])
    else match ActiveTreatment(catalog, req.treatmentId.value)
      case None => Step(store, Err(InvalidData), [])
      case Some(t) =>
        var date := req.date.value;
        var start := req.start.value;
        if !IsAvailableAsWritten(date, start, t, store, None) then Step(store, Err(SlotUnavailable), [])
        else if SlotTaken(store, date, start) then Step(store, Err(DuplicateSlot), [])
        else
          var r := Reservation(NextId(store), user.id, req.treatmentId.value, date, start,
                               EndOnSave(start, None, TotalMinutes(t)), DefaultStatus);
          Step(store + [r], Ok(r), [Address(user.email), Admin])
  }

  /** Creating a reservation keeps ids and (date, start) pairs distinct and
      keeps blocking reservations of one date from overlapping. */
  lemma CreatePreservesValid(req: BookingRequest, user: User, catalog: map<nat, Treatment>, store: seq<Reservation>)
    requires Valid(store)
    ensures Valid(CreateReservation(req, user, catalog, store).store)
  {
    var step := CreateReservation(req, user, catalog, store);
    if step.outcome.Ok? {
      var r := step.outcome.value;
      var s := step.store;
      var t := catalog[req.treatmentId.value];
      assert r.end == TimeOfDay(r.start + TotalMinutes(t));
      forall i, j | 0 <= i < j < |s|
        ensures s[i].id != s[j].id
        ensures !(s[i].date == s[j].date && s[i].start == s[j].start)
      {
        if j == |store| {
          assert s[i] in store;
        }
      }
      forall i, j | 0 <= i < j < |s| && Blocks(s[i], s[j].date) && Blocks(s[j], s[j].date)
        ensures !Overlaps(s[i].start, s[i].end, s[j].start, s[j].end)
      {
        if j == |store| {
          assert s[i] in store;
        }
      }
    }
  }

  /** The wrapped booking of `WrappedEndAccepted` goes through the view: on
      an empty Monday, 19:45 for 4h30 is stored with an end of 00:15. */
  lemma WrappedBookingStored()
    ensures var t := Treatment(1, "", "", "", "", 4, 30, 0, 0, "", true);
      var req := BookingRequest(Given(1), Given(Date(738886)), Given(19 * 60 + 45));
      var step := CreateReservation(req, User(1, "user@example.com"), map[1 := t], []);
      && step.outcome.Ok?
      && step.outcome.value.start == 19 * 60 + 45
      && step.outcome.value.end == 15
  {
    WrappedEndAccepted();
  }

  datatype CancelError = NotFound | AlreadyCancelled

  /** Index of the reservation with this id belonging to this user
      (`get_object_or_404(Reservation, id=..., user=...)`). */
  function FindOwned(store: seq<Reservation>, id: nat, user: nat): (k: Option<nat>)
    ensures k.Some? ==> k.value < |store| && store[k.value].id == id && store[k.value].user == user
    ensures k.Some? ==> forall i :: 0 <= i < k.value ==> !(store[i].id == id && store[i].user == user)
    ensures k.None? ==> forall i :: 0 <= i < |store| ==> !(store[i].id == id && store[i].user == user)
    decreases |store|
  {
    if store == [] then None
    else if store[0].id == id && store[0].user == user then Some(0)
    else match FindOwned(store[1..], id, user)
      case None => None
      case Some(k) => Some(k + 1)
  }

  /** `cancel_reservation`: another user's or an unknown reservation is not
      found; an already cancelled one is refused and nothing changes; any
      other becomes cancelled, nothing else changes, and the admin is told. */
  function CancelReservation(id: nat, user: User, store: seq<Reservation>): (step: Step<Reservation, CancelError>)
    ensures step.outcome.Err? ==> step.store == store && step.mail == []
    ensures step.outcome == Err(NotFound) <==> FindOwned(store, id, user.id).None?
    ensures step.outcome == Err(AlreadyCancelled) <==>
      FindOwned(store, id, user.id).Some? && store[FindOwned(store, id, user.id).value].status == Cancelled
    ensures step.outcome.Ok? ==>
      var k := FindOwned(store, id, user.id).value;
      && store[k].status != Cancelled
      && step.outcome.value == store[k].(status := Cancelled)
      && |step.store| == |store|
      && step.store[k] == step.outcome.value
      && (forall i :: 0 <= i < |store| && i != k ==> step.store[i] == store[i])
      && step.mail == [Admin]
  {
    match FindOwned(store, id, user.id)
    case None => Step(store, Err(NotFound), [])
    case Some(k) =>
      if store[k].status == Cancelled then Step(store, Err(AlreadyCancelled), [])
      else
        var r := store[k].(status := Cancelled);
        Step(store[k := r], Ok(r), [Admin])
  }

  /** Cancelling twice: the second request is refused and changes nothing. */
  lemma CancelTwiceRefused(id: nat, user: User, store: seq<Reservation>)
    requires CancelReservation(id, user, store).outcome.Ok?
    ensures var again := CancelReservation(id, user, CancelReservation(id, user, store).store);
      again.outcome == Err(AlreadyCancelled) && again.store == CancelReservation(id, user, store).store
  {
    var k := FindOwned(store, id, user.id).value;
    var s := CancelReservation(id, user, store).store;
    assert FindOwned(s, id, user.id) == Some(k);
  }

  /** Cancelling keeps the store valid and frees the interval: the cancelled
      reservation no longer blocks any date. */
  lemma CancelPreservesValid(id: nat, user: User, store: seq<Reservation>)
    requires Valid(store)
    ensures Valid(CancelReservation(id, user, store).store)
    ensures var step := CancelReservation(id, user, store);
      step.outcome.Ok? ==> forall d :: !Blocks(step.outcome.value, d)
  {
    var step := CancelReservation(id, user, store);
    if step.outcome.Ok? {
      var k := FindOwned(store, id, user.id).value;
      var s := step.store;
      forall i, j | 0 <= i < j < |s| && Blocks(s[i], s[j].date) && Blocks(s[j], s[j].date)
        ensures !Overlaps(s[i].start, s[i].end, s[j].start, s[j].end)
      {
        assert s[i] == store[i] && s[j] == store[j];
      }
    }
  }
}

=== FILE: storage.dfy ===
/** The custom-domain branch of `R2Storage.url` (naomi_face_studio/storage.py). */
module Storage {
  import opened Prelude
  import opened Text

  /** The storage class's `location`: every object lives under it. */
  const Location := "media"

  /** The configured domain with surrounding whitespace and then every
      trailing '/' removed. */
  function CleanDomain(domain: string): (c: string)
    ensures IsPrefix(c, StripSpace(domain))
    ensures c == [] || c[|c| - 1] != '/'
    ensures forall i :: |c| <= i < |StripSpace(domain)| ==> StripSpace(domain)[i] == '/'
  {
    RStrip(StripSpace(domain), IsSlash)
  }

  /** The cleaned domain with "https://" put in front unless it already
      starts with "http" (so "httpfoo.com" keeps no scheme). */
  function DomainBase(domain: string): (base: string)
    ensures IsPrefix("http", base)
    ensures IsPrefix("http", CleanDomain(domain)) ==> base == CleanDomain(domain)
    ensures !IsPrefix("http", CleanDomain(domain)) ==> base == "https://" + CleanDomain(domain)
  {
    var c := CleanDomain(domain);
    if IsPrefix("http", c) then c else "https://" + c
  }

  /** `f'{location}/{name}'.replace('//', '/').lstrip('/')`. The location
      keeps the path from starting with '/', so the final strip removes
      nothing. */
  function FilePath(name: string): (path: string)
    ensures IsPrefix(Location + "/", path)
    ensures |path| <= |Location + "/" + name|
    ensures NoDoubleSlash(name) && (name == [] || name[0] != '/') ==> path == Location + "/" + name
    ensures name == [] || name[0] != '/' ==> path == Location + "/" + ReplaceDoubleSlash(name)
    ensures name != [] && name[0] == '/' ==> path == Location + "/" + ReplaceDoubleSlash(name[1..])
  {
    var replaced := ReplaceDoubleSlash(Location + "/" + name);
    ReplacedKeepsLocation(name);
    JoinKeepsNoDoubleSlash(name);
    ReplaceNoop(Location + "/" + name);
    ReplacedJoin(name);
    LStripNoop(replaced, IsSlash);
    LStrip(replaced, IsSlash)
  }

  lemma JoinKeepsNoDoubleSlash(name: string)
    ensures NoDoubleSlash(name) && (name == [] || name[0] != '/') ==> NoDoubleSlash(Location + "/" + name)
  {
    var joined := Location + "/" + name;
    if NoDoubleSlash(name) && (name == [] || name[0] != '/') {
      forall i | 0 <= i < |joined| - 1
        ensures !(joined[i] == '/' && joined[i + 1] == '/')
      {
        if i >= 6 {
          assert joined[i] == name[i - 6] && joined[i + 1] == name[i - 5];
        }
      }
    }
  }

  /** The replacement pass copies a slash-free prefix unchanged. */
  lemma {:induction false} ReplaceSkipsPlain(p: string, t: string)
    requires '/' !in p
    ensures ReplaceDoubleSlash(p + t) == p + ReplaceDoubleSlash(t)
    decreases |p|
  {
    if p == [] {
      assert p + t == t;
    } else {
      var s := p + t;
      assert s[0] == p[0] && s[1..] == p[1..] + t;
      assert p[0] in p && '/' !in p[1..];
      ReplaceKeepsHead(s);
      ReplaceSkipsPlain(p[1..], t);
      calc {
        ReplaceDoubleSlash(s);
        [p[0]] + ReplaceDoubleSlash(p[1..] + t);
        [p[0]] + (p[1..] + ReplaceDoubleSlash(t));
        { assert [p[0]] + p[1..] == p; }
        p + ReplaceDoubleSlash(t);
      }
    }
  }

  /** The replacement pass leaves the leading "media/" in place. */
  lemma ReplacedKeepsLocation(name: string)
    ensures IsPrefix(Location + "/", ReplaceDoubleSlash(Location + "/" + name))
  {
    var tail := "/" + name;
    assert Location + "/" + name == Location + tail;
    ReplaceSkipsPlain(Location, tail);
    assert ReplaceDoubleSlash(tail)[0] == '/';
  }

  /** The pass over "media/" + name: a leading slash of the name merges with
      the separator, and the rest of the name is replaced on its own. */
  lemma ReplacedJoin(name: string)
    ensures ReplaceDoubleSlash(Location + "/" + name) == Location + "/" + SlashTail(name)
  {
    var tail := "/" + name;
    assert Location + "/" + name == Location + tail;
    ReplaceSkipsPlain(Location, tail);
    ReplaceSlashThen(name);
    assert Location + ("/" + SlashTail(name)) == Location + "/" + SlashTail(name);
  }

  /** The pass over "/" + name after the separator. */
  function SlashTail(name: string): (r: string) {
    if name != [] && name[0] == '/' then ReplaceDoubleSlash(name[1..]) else ReplaceDoubleSlash(name)
  }

  lemma ReplaceSlashThen(name: string)
    ensures ReplaceDoubleSlash("/" + name) == "/" + SlashTail(name)
  {
    var tail := "/" + name;
    if name == [] {
      assert tail == "/";
    } else if name[0] == '/' {
      assert tail[0] == '/' && tail[1] == '/' && tail[2..] == name[1..];
    } else {
      assert tail[0] == '/' && tail[1] != '/' && tail[1..] == name;
    }
  }

  /** Python's `'///'.replace('//', '/')`: a run of three slashes keeps two. */
  lemma TripleSlashKeepsTwo()
    ensures ReplaceDoubleSlash("///") == "//"
  {
  }

  /** `R2Storage.url` with `AWS_S3_CUSTOM_DOMAIN` set to `domain`: `None`
      means the parent class builds the URL (not modelled). */
  function CustomDomainUrl(domain: Option<string>, name: string): (url: Option<string>)
    ensures url.Some? <==> domain.Some? && StripSpace(domain.value) != ""
    ensures url.Some? ==> IsPrefix("http", url.value)
    ensures url.Some? ==> url.value == DomainBase(domain.value) + "/" + FilePath(name)
  {
    if domain.Some? && domain.value != "" && StripSpace(domain.value) != "" then
      Some(DomainBase(domain.value) + "/" + FilePath(name))
    else None
  }
}

=== FILE: text.dfy ===
/** String operations of Python's `str` that the model needs, on `seq<char>`. */
module Text {
  import opened Prelude

  predicate IsPrefix(p: string, s: string) {
    |p| <= |s| && s[..|p|] == p
  }

  predicate IsSuffix(p: string, s: string) {
    |p| <= |s| && s[|s| - |p|..] == p
  }

  /** `pat` occurs in `s` starting at index `i`. */
  predicate OccursAt(s: string, pat: string, i: int) {
    0 <= i && i + |pat| <= |s| && s[i..i + |pat|] == pat
  }

  /** Python's `pat in s`. */
  ghost predicate Contains(s: string, pat: string) {
    exists i :: OccursAt(s, pat, i)
  }

  /** Python's `s.find(pat, from)`: the first occurrence at or after `from`. */
  function FindFrom(s: string, pat: string, from: nat): (r: Option<nat>)
    ensures r.Some? ==> from <= r.value && OccursAt(s, pat, r.value)
    ensures r.Some? ==> forall j :: from <= j < r.value ==> !OccursAt(s, pat, j)
    ensures r.None? ==> forall j :: from <= j ==> !OccursAt(s, pat, j)
    decreases |s| - from
  {
    if from + |pat| > |s| then None
    else if s[from..from + |pat|] == pat then Some(from)
    else FindFrom(s, pat, from + 1)
  }

  function Find(s: string, pat: string): (r: Option<nat>)
    ensures r.None? <==> !Contains(s, pat)
    ensures r.Some? ==> OccursAt(s, pat, r.value)
    ensures r.Some? ==> forall j :: 0 <= j < r.value ==> !OccursAt(s, pat, j)
  {
    FindFrom(s, pat, 0)
  }

  /** An occurrence that fits inside a prefix is an occurrence in the prefix. */
  lemma OccursInPrefix(s: string, n: nat, pat: string, i: int)
    requires n <= |s|
    requires 0 <= i && i + |pat| <= n
    ensures OccursAt(s[..n], pat, i) <==> OccursAt(s, pat, i)
  {
    assert s[..n][i..i + |pat|] == s[i..i + |pat|];
  }

  /** Occurrences ending before the joint of `s + t` are occurrences in `s`. */
  lemma OccursInConcat(s: string, t: string, pat: string, i: int)
    requires 0 <= i && i + |pat| <= |s|
    ensures OccursAt(s + t, pat, i) <==> OccursAt(s, pat, i)
  {
    assert (s + t)[i..i + |pat|] == s[i..i + |pat|];
  }

  /** A prefix of a string without `pat` has no `pat` either. */
  lemma PrefixKeepsAbsence(s: string, n: nat, pat: string)
    requires n <= |s|
    requires !Contains(s, pat)
    ensures !Contains(s[..n], pat)
  {
    forall i | OccursAt(s[..n], pat, i)
      ensures false
    {
      OccursInPrefix(s, n, pat, i);
    }
  }

  predicate IsSlash(c: char) {
    c == '/'
  }

  /** Python's `str.isspace` on one character (the characters `str.strip()`
      removes when called without arguments). */
  predicate IsSpace(c: char) {
    var n := c as int;
    || (9 <= n <= 13)
    || (0x1C <= n <= 0x20)
    || n == 0x85 || n == 0xA0 || n == 0x1680
    || (0x2000 <= n <= 0x200A)
    || n == 0x2028 || n == 0x2029 || n == 0x202F || n == 0x205F || n == 0x3000
  }

  /** Python's `s.lstrip(chars)`: drop the longest prefix of characters satisfying `drop`. */
  function LStrip(s: string, drop: char -> bool): (r: string)
    ensures IsSuffix(r, s)
    ensures r == [] || !drop(r[0])
    ensures forall i :: 0 <= i < |s| - |r| ==> drop(s[i])
    decreases |s|
  {
    if |s| > 0 && drop(s[0]) then LStrip(s[1..], drop) else s
  }

  lemma LStripNoop(s: string, drop: char -> bool)
    requires s == [] || !drop(s[0])
    ensures LStrip(s, drop) == s
  {
  }

  /** Python's `s.rstrip(chars)`: drop the longest suffix of characters satisfying `drop`. */
  function RStrip(s: string, drop: char -> bool): (r: string)
    ensures IsPrefix(r, s)
    ensures r == [] || !drop(r[|r| - 1])
    ensures forall i :: |r| <= i < |s| ==> drop(s[i])
    decreases |s|
  {
    if |s| > 0 && drop(s[|s| - 1]) then RStrip(s[..|s| - 1], drop) else s
  }

  /** Python's `s.strip()`. */
  function StripSpace(s: string): (r: string)
    ensures r == [] || (!IsSpace(r[0]) && !IsSpace(r[|r| - 1]))
    ensures r == [] <==> forall i :: 0 <= i < |s| ==> IsSpace(s[i])
  {
    var left := LStrip(s, IsSpace);
    assert forall i :: |s| - |left| <= i < |s| ==> s[i] == left[i - (|s| - |left|)];
    RStrip(left, IsSpace)
  }

  predicate NoDoubleSlash(s: string) {
    forall i :: 0 <= i < |s| - 1 ==> !(s[i] == '/' && s[i + 1] == '/')
  }

  /** Python's `s.replace('//', '/')`: one left-to-right pass over
      non-overlapping occurrences. */
  function ReplaceDoubleSlash(s: string): (r: string)
    ensures |r| <= |s|
    ensures r == [] <==> s == []
    decreases |s|
  {
    if |s| < 2 then s
    else if s[0] == '/' && s[1] == '/' then "/" + ReplaceDoubleSlash(s[2..])
    else [s[0]] + ReplaceDoubleSlash(s[1..])
  }

  /** Without a "//" the replacement changes nothing. */
  lemma {:induction false} ReplaceNoop(s: string)
    ensures NoDoubleSlash(s) ==> ReplaceDoubleSlash(s) == s
    decreases |s|
  {
    if NoDoubleSlash(s) && |s| >= 2 {
      assert !(s[0] == '/' && s[1] == '/');
      assert NoDoubleSlash(s[1..]) by {
        forall i | 0 <= i < |s[1..]| - 1
          ensures !(s[1..][i] == '/' && s[1..][i + 1] == '/')
        {
          assert s[1..][i] == s[i + 1] && s[1..][i + 1] == s[i + 2];
        }
      }
      ReplaceNoop(s[1..]);
    }
  }

  /** The pass runs left to right without looking back: a piece that does
      not end in '/' is replaced on its own, and so is what follows it. */
  lemma {:induction false} ReplaceConcat(a: string, t: string)
    requires a == [] || a[|a| - 1] != '/'
    ensures ReplaceDoubleSlash(a + t) == ReplaceDoubleSlash(a) + ReplaceDoubleSlash(t)
    decreases |a|
  {
    var s := a + t;
    if a == [] {
      assert s == t;
    } else if |a| == 1 {
      if t != [] {
        assert s[0] == a[0] && s[1..] == t;
      } else {
        assert s == a;
      }
    } else if a[0] == '/' && a[1] == '/' {
      assert s[2..] == a[2..] + t;
      ReplaceConcat(a[2..], t);
    } else {
      assert s[1..] == a[1..] + t;
      ReplaceConcat(a[1..], t);
    }
  }

  /** Each "//" the pass meets becomes one '/', and the pass goes on after it. */
  lemma ReplaceMergesPair(a: string, b: string)
    requires a == [] || a[|a| - 1] != '/'
    ensures ReplaceDoubleSlash(a + "//" + b) == ReplaceDoubleSlash(a) + "/" + ReplaceDoubleSlash(b)
  {
    assert a + "//" + b == a + ("//" + b);
    ReplaceConcat(a, "//" + b);
    assert ("//" + b)[2..] == b;
  }

  /** A pass that does not start on a slash keeps the first character. */
  lemma ReplaceKeepsHead(s: string)
    requires |s| > 0 && s[0] != '/'
    ensures ReplaceDoubleSlash(s) == [s[0]] + ReplaceDoubleSlash(s[1..])
  {
  }

  /** Python's `s.split(c)[0]`: everything before the first `c`. */
  function TakeUntil(s: string, c: char): (r: string)
    ensures IsPrefix(r, s)
    ensures c !in r
    ensures |r| < |s| ==> s[|r|] == c
    decreases |s|
  {
    if s == [] then []
    else if s[0] == c then []
    else [s[0]] + TakeUntil(s[1..], c)
  }

  predicate IsDigit(c: char) {
    '0' <= c <= '9'
  }

  predicate IsDigits(s: string) {
    forall i :: 0 <= i < |s| ==> IsDigit(s[i])
  }

  function DigitChar(d: nat): (c: char)
    requires d < 10
    ensures IsDigit(c)
  {
    ('0' as int + d) as char
  }

  /** Python's `f"{n}"` for a non-negative integer. */
  function Decimal(n: nat): (s: string)
    ensures |s| > 0 && IsDigits(s)
    ensures s[0] == '0' ==> n == 0
    decreases n
  {
    if n < 10 then [DigitChar(n)] else Decimal(n / 10) + [DigitChar(n % 10)]
  }

  /** The value of a string of decimal digits (Python's `int(s)`). */
  function DigitsValue(s: string): (n: nat)
    requires IsDigits(s)
    decreases |s|
  {
    if s == [] then 0
    else DigitsValue(s[..|s| - 1]) * 10 + (s[|s| - 1] as int - '0' as int)
  }

  /** Reading back what `Decimal` writes gives the number again. */
  lemma {:induction false} DecimalRoundTrip(n: nat)
    ensures DigitsValue(Decimal(n)) == n
    decreases n
  {
    var s := Decimal(n);
    if n >= 10 {
      DecimalRoundTrip(n / 10);
      assert s[..|s| - 1] == Decimal(n / 10);
    }
  }
}

=== FILE: treatments.dfy ===
/** The bookable treatment: duration arithmetic, its display, the title
    fallback and the thumbnail upload path (treatments/models.py). */
module Treatments {
  import opened Prelude
  import opened Text

  /** The fields of a treatment the rest of the model reads. Durations are
      non-negative in the database (positive-integer fields), hence `nat`. */
  datatype Treatment = Treatment(
    id: nat,
    titleHr: string,
    titleEn: string,
    descriptionHr: string,
    descriptionEn: string,
    durationHours: nat,
    durationMinutes: nat,
    pauseHours: nat,
    pauseMinutes: nat,
    thumbnail: string,
    isActive: bool)

  const ThumbnailDir := "treatments/thumbnails/"

  /** `Treatment.objects.get(id=..., is_active=True)`. */
  function ActiveTreatment(catalog: map<nat, Treatment>, id: nat): (t: Option<Treatment>)
    ensures t.Some? <==> id in catalog && catalog[id].isActive
    ensures t.Some? ==> t.value == catalog[id]
  {
    if id in catalog && catalog[id].isActive then Some(catalog[id]) else None
  }

  /** Length of the treatment in minutes. The minutes field is not bounded by
      60, so only when it is below 60 does the total split back into the two
      fields. */
  function TotalMinutes(t: Treatment): (m: nat)
    ensures m >= t.durationMinutes && m - t.durationMinutes == 60 * t.durationHours
    ensures m == 0 <==> t.durationHours == 0 && t.durationMinutes == 0
    ensures t.durationMinutes < 60 ==> m / 60 == t.durationHours && m % 60 == t.durationMinutes
  {
    t.durationHours * 60 + t.durationMinutes
  }

  /** Rest time after the treatment, in minutes; same shape as `TotalMinutes`. */
  function TotalPauseMinutes(t: Treatment): (m: nat)
    ensures m >= t.pauseMinutes && m - t.pauseMinutes == 60 * t.pauseHours
    ensures m == 0 <==> t.pauseHours == 0 && t.pauseMinutes == 0
    ensures t.pauseMinutes < 60 ==> m / 60 == t.pauseHours && m % 60 == t.pauseMinutes
  {
    t.pauseHours * 60 + t.pauseMinutes
  }

  /** Python's `" ".join(parts)`. */
  function JoinSpace(parts: seq<string>): (joined: string)
    decreases |parts|
  {
    if parts == [] then ""
    else if |parts| == 1 then parts[0]
    else parts[0] + " " + JoinSpace(parts[1..])
  }

  /** The duration as shown to visitors: "Xh", "Ymin", "Xh Ymin", or "0min"
      when both parts are zero. Minutes of 60 or more are shown as they are. */
  function DurationDisplay(hours: nat, minutes: nat): (s: string)
    ensures s == "0min" <==> hours == 0 && minutes == 0
    ensures hours > 0 && minutes == 0 ==> s == Decimal(hours) + "h"
    ensures hours == 0 && minutes > 0 ==> s == Decimal(minutes) + "min"
    ensures hours > 0 && minutes > 0 ==> s == Decimal(hours) + "h " + Decimal(minutes) + "min"
  {
    var parts :=
      (if hours > 0 then [Decimal(hours) + "h"] else []) +
      (if minutes > 0 then [Decimal(minutes) + "min"] else []);
    if parts == [] then "0min"
    else if hours > 0 && minutes > 0 then
      var s := JoinSpace(parts);
      assert JoinSpace(parts[1..]) == Decimal(minutes) + "min";
      assert s == Decimal(hours) + "h " + Decimal(minutes) + "min";
      assert s[|s| - 1] == 'n' && s[|Decimal(hours)|] == 'h';
      s
    else if hours > 0 then
      var s := JoinSpace(parts);
      assert s[|s| - 1] == 'h';
      s
    else
      var s := JoinSpace(parts);
      assert s == Decimal(minutes) + "min";
      assert s[0] == Decimal(minutes)[0];
      s
  }

  /** `s` is a decimal number followed by `unit`. */
  function ParseUnit(s: string, unit: string): (n: Option<nat>)
  {
    if |s| > |unit| && IsSuffix(unit, s) && IsDigits(s[..|s| - |unit|])
    then Some(DigitsValue(s[..|s| - |unit|]))
    else None
  }

  /** Reads a duration display back into (hours, minutes). */
  function ParseDurationDisplay(s: string): (parsed: Option<(nat, nat)>)
  {
    if s == "0min" then Some((0, 0))
    else match Find(s, " ")
      case Some(i) =>
        (match (ParseUnit(s[..i], "h"), ParseUnit(s[i + 1..], "min"))
         case (Some(h), Some(m)) => Some((h, m))
         case _ => None)
      case None =>
        (match ParseUnit(s, "min")
         case Some(m) => Some((0, m))
         case None =>
           (match ParseUnit(s, "h")
            case Some(h) => Some((h, 0))
            case None => None))
  }

  lemma ParseNumberWithUnit(n: nat, unit: string)
    requires |unit| > 0 && !IsDigit(unit[0])
    ensures ParseUnit(Decimal(n) + unit, unit) == Some(n)
  {
    var s := Decimal(n) + unit;
    assert s[..|s| - |unit|] == Decimal(n);
    assert s[|s| - |unit|..] == unit;
    DecimalRoundTrip(n);
  }

  lemma NoSpaceIn(s: string)
    requires forall i :: 0 <= i < |s| ==> s[i] != ' '
    ensures Find(s, " ").None?
  {
    forall i | 0 <= i < |s|
      ensures !OccursAt(s, " ", i)
    {
      assert s[i..i + 1] == [s[i]];
    }
  }

  /** "Xh Ymin" reads back as (X, Y). */
  lemma HoursAndMinutesRoundTrip(hours: nat, minutes: nat)
    requires hours > 0 && minutes > 0
    ensures ParseDurationDisplay(DurationDisplay(hours, minutes)) == Some((hours, minutes))
  {
    var s := DurationDisplay(hours, minutes);
    var h := Decimal(hours);
    var m := Decimal(minutes);
    var parts := [h + "h", m + "min"];
    assert JoinSpace(parts[1..]) == m + "min";
    assert s == JoinSpace(parts);
    assert s == h + "h" + " " + (m + "min");
    var i := |h| + 1;
    assert s[i] == ' ';
    assert ' ' in s && ' ' !in "0min";
    assert OccursAt(s, " ", i);
    forall j | 0 <= j < i
      ensures !OccursAt(s, " ", j)
    {
      assert s[j..j + 1][0] == s[j];
    }
    assert Find(s, " ") == Some(i);
    assert s[..i] == h + "h";
    assert s[i + 1..] == m + "min";
    ParseNumberWithUnit(hours, "h");
    ParseNumberWithUnit(minutes, "min");
  }

  /** "Xh" reads back as (X, 0). */
  lemma HoursOnlyRoundTrip(hours: nat)
    requires hours > 0
    ensures ParseDurationDisplay(DurationDisplay(hours, 0)) == Some((hours, 0))
  {
    var s := DurationDisplay(hours, 0);
    var h := Decimal(hours);
    assert s == h + "h";
    assert s[|s| - 1] == 'h';
    assert s != "0min";
    NoSpaceIn(s);
    assert !IsSuffix("min", s);
    ParseNumberWithUnit(hours, "h");
  }

  /** "Ymin" reads back as (0, Y). */
  lemma MinutesOnlyRoundTrip(minutes: nat)
    requires minutes > 0
    ensures ParseDurationDisplay(DurationDisplay(0, minutes)) == Some((0, minutes))
  {
    var s := DurationDisplay(0, minutes);
    var m := Decimal(minutes);
    assert s == m + "min";
    assert s[0] == m[0] != '0';
    NoSpaceIn(s);
    ParseNumberWithUnit(minutes, "min");
  }

  /** The display loses nothing: reading it back yields both fields, so two
      treatments with different duration fields never show the same text. */
  lemma DurationDisplayRoundTrip(hours: nat, minutes: nat)
    ensures ParseDurationDisplay(DurationDisplay(hours, minutes)) == Some((hours, minutes))
  {
    if hours > 0 && minutes > 0 {
      HoursAndMinutesRoundTrip(hours, minutes);
    } else if hours > 0 {
      HoursOnlyRoundTrip(hours);
    } else if minutes > 0 {
      MinutesOnlyRoundTrip(minutes);
    }
  }

  /** The title for a language code: English for "en", Croatian for "hr"
      and for every code that has no title field of its own. */
  function Title(t: Treatment, languageCode: string): (title: string)
    ensures title == t.titleEn || title == t.titleHr
    ensures languageCode == "hr" ==> title == t.titleHr
    ensures t.titleEn != t.titleHr ==> (title == t.titleEn <==> languageCode == "en")
  {
    if languageCode == "en" then t.titleEn else t.titleHr
  }

  /** Upload path of a thumbnail: the fixed directory, filename kept as given. */
  function ThumbnailPath(filename: string): (path: string)
    ensures IsPrefix(ThumbnailDir, path)
    ensures path[|ThumbnailDir|..] == filename
  {
    ThumbnailDir + filename
  }
}
